=== FILE: README.md ===
# dhcpkit fixed-DUID handler, listener address rules and option codecs, in Dafny

This project models four pieces of the dhcpkit DHCPv6 server and proves properties
about them:

- **The fixed-DUID option handler** (`FixedDuid`). A read-only table maps a client's
  DUID to an optional address and an optional prefix. Against that table the handler
  answers the request's unanswered IA_NA and IA_PD options, following the server
  rules of section 18.3 of RFC 8415:
  - Solicit and Request assign the prefix first, then the address, but the address
    only on a link the handler is responsible for.
  - Confirm accepts the assigned address, or stops at the first wrong in-scope
    address with a single NotOnLink status.
  - Renew and Rebind reissue the assigned lease and withdraw every other lease at
    lifetime 0.
  - Release and Decline only mark options as handled.
- **The transaction bundle** (`TransactionBundle`). It holds the request, the link
  address, the set of request options already answered, and the reply under
  construction. The handled set holds option positions, because an option is
  identified by its instance, not by its iaid. `DhcpOptions` holds the structured
  options. `Ipv6` holds addresses as 128-bit numbers and the prefix geometry:
  `address_in_prefixes` compares top bits, and two prefixes overlap when one
  contains the other.
- **The multicast-interface listener's address rules** (`MulticastInterfaceConfig`).
  These are `is_global_unicast`, which implements the address-type table of
  section 2.4 of RFC 4291, and the way `validate_config` chooses or checks the
  reply-from and link addresses. Both are pure functions over the interface's
  address list, which is given as input.
- **Option wire formats.**
  - `OptionHeader` is the generic DHCPv6 option header of section 21.1 of RFC 8415:
    a 16-bit code and a 16-bit length, big-endian.
  - `Rfc7083` holds the SOL_MAX_RT and INF_MAX_RT options (sections 4 and 5 of
    RFC 7083). Each is a fixed 8-byte option carrying a 32-bit value.
  - `OptionCodec` holds generic parse and save with `UnknownOption`, as the option
    test case fixes them. Option codes 82 and 83 are registered to the two RFC 7083
    classes. In this model every other code parses as an unknown option.

Handler errors are values. `FixedDuid.Outcome` carries the bundle as the handler
left it together with the error it raised, if any. Changes made before the error
stay, as they do when the Python handler updates its bundle in place: a Request can assign a prefix and then
fail for lack of a link address.

Where the code departs from RFC 8415 or RFC 7083, the model keeps the code's
behaviour, except for the two defects listed under Findings:
- Renew/Rebind answers an IA_PD with an IA_NA wrapper and address lifetimes.
  `FixedDuid.HandleRenewRebind` uses the corrected `FixedDuid.RenewIaPd` instead;
  the code as written is `FixedDuid.RenewIaPdAsWritten`.
- `load_from` of the RFC 7083 options stores a 1-tuple. `OptionCodec.Parse` uses the
  corrected `Rfc7083.LoadMaxRt`; the code as written is `Rfc7083.LoadMaxRtAsWritten`.

Two further points follow the code:
- Message kinds the handler does not dispatch on leave the bundle unchanged.
- A request without a client identifier is an error (`MissingClientId`), because
  reading the DUID of a missing option raises.

## Model

| member | source | states |
|---|---|---|
| Sequences.FirstWhere | dhcp/ipv6/option_handlers/fixed_duid.py:51-57 | the position returned satisfies the test and no earlier element does; none only when no element does |
| FixedDuid.FindIaOptionFor | dhcp/ipv6/option_handlers/fixed_duid.py:42-74 | the first option holding the lease is chosen whenever one exists; otherwise the first option; nothing exactly when the list is empty |
| FixedDuid.AssignLease | dhcp/ipv6/option_handlers/fixed_duid.py:101-133 | with a lease and a candidate, appends exactly one IA of the same kind, with the chosen option's iaid and only the lease at the given lifetimes, and marks exactly that option; otherwise the bundle is unchanged |
| FixedDuid.HandleRequest | dhcp/ipv6/option_handlers/fixed_duid.py:87-133 | the reply only grows; no client identifier is an error with the bundle untouched; a missing link address is an error, and is the only one once the DUID is known |
| FixedDuid.RequestAssignsPrefix | dhcp/ipv6/option_handlers/fixed_duid.py:101-113 | with an assigned prefix and an unanswered IA_PD, the first added reply option is an IA_PD for the chosen option carrying only that prefix at the prefix lifetimes and every later added one is an IA_NA; the chosen option was unanswered, is marked, and is the only IA_PD newly marked; without an assigned prefix or an unanswered IA_PD no IA_PD is answered or marked |
| FixedDuid.RequestLinkScoping | dhcp/ipv6/option_handlers/fixed_duid.py:115-120 | on a link the handler does not serve, only IA_PD options are answered or marked |
| FixedDuid.RequestAssignsAddress | dhcp/ipv6/option_handlers/fixed_duid.py:122-133 | on a served link with an assigned address and an unanswered IA_NA, the last added reply option is an IA_NA for the chosen option carrying only that address at the address lifetimes and every earlier added one is an IA_PD; the chosen option was unanswered, is marked, and is the only IA_NA newly marked; without an assigned address or an unanswered IA_NA no IA_NA is answered or marked |
| FixedDuid.RequestEvolves | dhcp/ipv6/option_handlers/fixed_duid.py:101-133 | Solicit/Request keeps request and link, only grows the handled set, and marks only IA options not handled before |
| FixedDuid.ConfirmAddresses | dhcp/ipv6/option_handlers/fixed_duid.py:157-169 | the scan of one IA_NA stops exactly when an address conflicts; when it does not stop, the reply is unchanged and the option is marked exactly when it holds the assigned address; when it stops, the option is marked and the reply is NotOnLink for the first conflicting address |
| FixedDuid.ConfirmOptions | dhcp/ipv6/option_handlers/fixed_duid.py:153-169 | the scan over the unanswered IA_NA options keeps request and link, marks only scanned options, leaves the reply alone unless it stops, and then forces NotOnLink for a conflicting address; which address is stated by FixedDuid.ConfirmStoppedReply |
| FixedDuid.HandleConfirm | dhcp/ipv6/option_handlers/fixed_duid.py:135-169 | without a link address, an error with the bundle untouched; on an unserved link, nothing changes; on a served link, no client identifier is the only error |
| FixedDuid.ConfirmStopsIffConflict | dhcp/ipv6/option_handlers/fixed_duid.py:156-169 | the Confirm scan stops exactly when some scanned IA_NA holds a conflicting address |
| FixedDuid.ConfirmAcceptedMarks | dhcp/ipv6/option_handlers/fixed_duid.py:156-161 | a scan that does not stop marks exactly the options holding the assigned address |
| FixedDuid.ConfirmStoppedMarks | dhcp/ipv6/option_handlers/fixed_duid.py:156-169 | a scan that stops does so at the first conflicting option, and marks the earlier options that hold the assigned address, that option, and nothing later |
| FixedDuid.ConfirmOutcome | dhcp/ipv6/option_handlers/fixed_duid.py:141-169 | on a served link: with no conflicting IA_NA the reply is unchanged and exactly the options holding the assigned address are marked; with one, the reply ends in the one and only status code, NotOnLink, naming the first conflicting address of the first unanswered IA_NA that has one |
| FixedDuid.ConfirmConflictMarks | dhcp/ipv6/option_handlers/fixed_duid.py:156-169 | a failing Confirm stops at the first unanswered IA_NA with a conflicting address; it marks the accepted options before it, that option, and nothing after it, and its reply is NotOnLink for that option's first conflicting address |
| FixedDuid.ConfirmStoppedReply | dhcp/ipv6/option_handlers/fixed_duid.py:156-169 | a scan that stops does so at the first conflicting option, and its reply is the old reply with NotOnLink forced for that option's first conflicting address |
| FixedDuid.ConfirmStoppedAt | dhcp/ipv6/option_handlers/fixed_duid.py:156-169 | a scan that stops at the first conflicting option has both the marks and the NotOnLink reply that option determines |
| FixedDuid.RejectedReply | dhcp/ipv6/option_handlers/fixed_duid.py:163-167 | a reply rejecting a wrong address ends in the one and only status code, NotOnLink |
| FixedDuid.TakenOptions | dhcp/ipv6/option_handlers/fixed_duid.py:185-186 | keeps exactly the options the handler takes responsibility for, in request order |
| FixedDuid.NothingTakenWithoutPrefix | dhcp/ipv6/option_handlers/fixed_duid.py:185-186 | without an assigned prefix no IA_PD is taken |
| FixedDuid.RenewLeases | dhcp/ipv6/option_handlers/fixed_duid.py:188-200 | one reissued suboption per requested lease, in order: the assigned one at the configured lifetimes, every other one with the same value at lifetime 0 |
| FixedDuid.RenewIaPd | dhcp/ipv6/option_handlers/fixed_duid.py:185-204 | the corrected IA_PD answer: an IA_PD with the same iaid, one IA Prefix per requested prefix, the assigned one at the prefix lifetimes and the others withdrawn |
| FixedDuid.RenewIaNa | dhcp/ipv6/option_handlers/fixed_duid.py:206-225 | an IA_NA with the same iaid, one IA Address per requested address, the assigned one at the address lifetimes and the others withdrawn |
| FixedDuid.RenewIaPdAsWritten | dhcp/ipv6/option_handlers/fixed_duid.py:193-202 | the IA_PD answer as written is an IA_NA with the same iaid whose suboptions are all IA Prefix leases |
| FixedDuid.RenewIaPdAsWrittenIsWrong | dhcp/ipv6/option_handlers/fixed_duid.py:193-202 | the as-written answer differs from the corrected one for every IA_PD, and gives the assigned prefix the address lifetimes |
| FixedDuid.HandleRenewRebind | dhcp/ipv6/option_handlers/fixed_duid.py:171-225 | the handled set gains exactly the taken unanswered IA options; the reply is the old reply followed by one corrected answer per taken IA_PD, then one per taken IA_NA, in request order (`RenewedReply`) |
| FixedDuid.RenewedReplyLayout | dhcp/ipv6/option_handlers/fixed_duid.py:183-225 | the reply built from the taken IA_PD and IA_NA answers keeps the old reply in front, then holds the answers in order, IA_PD before IA_NA |
| FixedDuid.AllWithdrawn | dhcp/ipv6/option_handlers/fixed_duid.py:211-221 | without an assigned address every IA_NA answer withdraws all its addresses |
| FixedDuid.UnknownClientWithdrawn | dhcp/ipv6/option_handlers/fixed_duid.py:206-225 | for a DUID missing from the table, Renew/Rebind only appends IA_NA answers that withdraw every address |
| FixedDuid.HandleReleaseDecline | dhcp/ipv6/option_handlers/fixed_duid.py:227-250 | the reply is unchanged and the handled set gains exactly the unanswered IA_PD options overlapping the assigned prefix and the unanswered IA_NA options with an address on a served link |
| FixedDuid.ReleaseMarksWhatRenewTakes | dhcp/ipv6/option_handlers/fixed_duid.py:242-250 | Release/Decline marks the same options Renew/Rebind answers |
| FixedDuid.Handle | dhcp/ipv6/option_handlers/fixed_duid.py:77-85 | other message kinds leave the bundle unchanged; the only errors are a missing client identifier and a missing link address |
| FixedDuid.HandleEvolves | dhcp/ipv6/option_handlers/fixed_duid.py:77-85 | every branch keeps request and link, only grows the handled set, marks only IA options, and only appends to the reply, except that Confirm may replace the status codes by one NotOnLink for an address on a served link |
| TransactionBundle.Unanswered | dhcp/ipv6/option_handlers/fixed_duid.py:98-99 | exactly the positions of IA options of the kind that are not yet handled, in increasing order |
| TransactionBundle.MarkHandled | dhcp/ipv6/option_handlers/fixed_duid.py:113-113 | the handled set gains exactly position `i`; the request, link address and reply are unchanged; the marked option drops out of every unanswered view |
| TransactionBundle.LinkAddress | dhcp/ipv6/option_handlers/fixed_duid.py:116-116 | succeeds exactly when the bundle has a link address, and otherwise fails with NoLinkInformation |
| DhcpOptions.Leases | dhcp/ipv6/option_handlers/fixed_duid.py:189-189 | a lease is listed exactly when a suboption carries it and it is of the requested kind |
| DhcpOptions.LeasesAppend | dhcp/ipv6/option_handlers/fixed_duid.py:189-189 | the leases keep the suboptions' order and multiplicity: the leases of two runs are those of the first followed by those of the second, and one suboption gives its lease exactly when it is a lease of the kind |
| DhcpOptions.ClientDuid | dhcp/ipv6/option_handlers/fixed_duid.py:94-94 | some DUID exactly when a client identifier is present, and then that of the first one |
| DhcpOptions.ForceStatus | dhcp/ipv6/option_handlers/fixed_duid.py:165-167 | the reply ends in the given status, holds no other status code, keeps every other option, and holds nothing but the input's non-status options and the new status |
| DhcpOptions.WithoutStatusAppend | dhcp/ipv6/option_handlers/fixed_duid.py:165-167 | dropping status codes keeps the other options' order and multiplicity: two runs are filtered one after the other, and one option is kept exactly when it is not a status code |
| DhcpOptions.ForceStatusAppend | dhcp/ipv6/option_handlers/fixed_duid.py:165-167 | the non-status options in front of a run stay, in order, ahead of the result of forcing the status on that run |
| DhcpOptions.ForceStatusIdempotent | dhcp/ipv6/option_handlers/fixed_duid.py:165-167 | forcing the same status twice gives the same reply as forcing it once |
| Ipv6.OverlapsIffCommonAddress | dhcp/ipv6/option_handlers/fixed_duid.py:186-186 | two prefixes overlap exactly when some address lies in both |
| Ipv6.OverlapsPrefixesIffCommonAddress | dhcp/ipv6/option_handlers/fixed_duid.py:243-243 | a prefix overlaps a list of prefixes exactly when it shares an address with one of them |
| MulticastInterfaceConfig.MulticastRange | dhcpkit/ipv6/server/listeners/multicast_interface/config.py:26-26 | an address is in ff00::/8 exactly when it is at least ff00:: |
| MulticastInterfaceConfig.LinkLocalRange | dhcpkit/ipv6/server/listeners/multicast_interface/config.py:27-27 | an address is in fe80::/10 exactly when it lies from fe80:: up to, not including, fec0:: |
| MulticastInterfaceConfig.GlobalUnicastRanges | dhcpkit/ipv6/server/listeners/multicast_interface/config.py:17-27 | the global unicast addresses are exactly those from ::2 below fe80:: and from fec0:: below ff00:: |
| MulticastInterfaceConfig.LinkLocalIsNotGlobal | dhcpkit/ipv6/server/listeners/multicast_interface/config.py:24-27 | no link-local address is global unicast; a global unicast address is neither ::, ::1 nor multicast |
| MulticastInterfaceConfig.ClassifiedSamples | dhcpkit/ipv6/server/listeners/multicast_interface/config.py:24-27 | 2001:db8::1 and fec0::1 are global unicast; ::, ::1, fe80::1, febf:: and ff02::1:2 are not |
| MulticastInterfaceConfig.ChooseReplyFrom | dhcpkit/ipv6/server/listeners/multicast_interface/config.py:50-67 | unset: the first link-local interface address, or an error exactly when there is none; set: accepted exactly when link-local and on the interface, with the matching error otherwise |
| MulticastInterfaceConfig.ChooseLinkAddress | dhcpkit/ipv6/server/listeners/multicast_interface/config.py:69-85 | unset: the first global unicast interface address, or an error exactly when there is none; set: accepted exactly when global unicast, on the interface or not |
| MulticastInterfaceConfig.ValidateConfig | dhcpkit/ipv6/server/listeners/multicast_interface/config.py:50-85 | a validated section replies from a link-local address of the interface and names a global unicast link address: the configured ones when given, otherwise the first link-local and the first global unicast address in interface order; a reply-from error wins over a link-address error, and a link-address failure after a valid reply-from is reported with the link-address rule's own error |
| MulticastInterfaceConfig.ValidateConfigSample | dhcpkit/ipv6/server/listeners/multicast_interface/config.py:50-76 | with nothing configured, the interface fe80::1, fe80::2, 2001:db8::1 replies from fe80::1, the first link-local address, and names 2001:db8::1 as link address |
| Wire.Uint32RoundTrip | dhcp/ipv6/rfc7083.py:55-61 | a packed 32-bit value reads back as itself wherever it sits in a buffer |
| OptionHeader.ParseOptionHeader | tests/ipv6/options/test_option.py:38-49 | succeeds exactly when the header is in the buffer, the code is the expected one and the whole option fits the allowed length, with the code and length read big-endian |
| OptionHeader.HeaderRoundTrip | tests/ipv6/options/test_option.py:28-32 | an encoded header reads back as itself wherever it sits, under any allowed length that covers header and payload |
| OptionHeader.HeaderBytes | tests/ipv6/options/test_option.py:28-29 | re-encoding a parsed header reproduces its four bytes |
| Rfc7083.CodesDistinct | dhcp/ipv6/rfc7083.py:8-9 | SOL_MAX_RT is code 82, INF_MAX_RT is code 83, and the two classes have different codes |
| Rfc7083.SaveMaxRt | dhcp/ipv6/rfc7083.py:60-61 | saving succeeds exactly for values from 0 to 2^32-1 and then yields 8 bytes: the class's code, the length 4 and the value, big-endian |
| Rfc7083.LoadMaxRt | dhcp/ipv6/rfc7083.py:49-58 | loading succeeds exactly when the header for this class is present and announces 4 bytes and the buffer holds them; it consumes 8 bytes; any other announced length is refused |
| Rfc7083.SaveThenLoad | dhcp/ipv6/rfc7083.py:49-61 | loading a saved option anywhere in a buffer gives it back and consumes 8 bytes, under any allowed length of at least 8 |
| Rfc7083.LoadThenSave | dhcp/ipv6/rfc7083.py:49-61 | saving a loaded option reproduces the bytes it was loaded from |
| Rfc7083.WrongBufferRefused | tests/ipv6/options/test_option.py:42-49 | both classes refuse the buffer fffe0000 as holding another option |
| Rfc7083.LoadMaxRtAsWritten | dhcp/ipv6/rfc7083.py:55-55 | the as-written load succeeds when the corrected one does, but leaves a 1-tuple in the value attribute |
| Rfc7083.SaveMaxRtObject | dhcp/ipv6/rfc7083.py:60-61 | an object holding a 1-tuple cannot be saved; one holding a number saves like the corrected option |
| Rfc7083.LoadAsWrittenBreaksSave | dhcp/ipv6/rfc7083.py:109-115 | for every encodable value, an option loaded as written from its own encoding cannot be saved again |
| OptionCodec.LoadUnknown | tests/ipv6/options/test_option.py:13-26 | any code is accepted; the option consumes its header and announced payload and keeps that payload |
| OptionCodec.Parse | tests/ipv6/options/test_option.py:17-20 | registered codes parse as their class and all others as unknown options; what is consumed fits the allowed length; with a code in the buffer, parsing succeeds exactly when the registered class's load, or for other codes the header read under the same length, succeeds |
| OptionCodec.Save | tests/ipv6/options/test_option.py:31-32 | saving succeeds exactly for options whose fields fit their wire widths; an unknown option saves as its code, its payload length and its payload |
| OptionCodec.Validate | tests/ipv6/options/test_option.py:34-36 | an unknown option validates exactly when its code and payload length fit 16 bits; a bad code fails with `CodeOutOfRange`, otherwise a payload of 65535 bytes or more fails with `DataTooLong`; RFC 7083 options always validate |
| OptionCodec.ParseThenSave | tests/ipv6/options/test_option.py:28-29 | an option parsed from a buffer that holds it saves back to exactly the bytes it came from |
| OptionCodec.SaveThenParse | tests/ipv6/options/test_option.py:31-32 | parsing a saved option anywhere in a buffer gives it back and consumes exactly its bytes, with no length or with any explicit length that covers the option, unless an unknown option uses a registered code |
| OptionCodec.ParsedValidates | tests/ipv6/options/test_option.py:34-36 | every parsed option validates |
| OptionCodec.FixtureParses | tests/ipv6/options/test_option.py:22-26 | ffff0010 followed by 0123456789abcdef parses as the unknown option 65535 with that payload and consumes all 20 bytes |
| OptionCodec.FixtureSaves | tests/ipv6/options/test_option.py:28-32 | both the constructed and the parsed fixture option save to the fixture bytes |
| OptionCodec.FixtureOverflows | tests/ipv6/options/test_option.py:38-40 | allowing one byte less than the fixture occupies is refused as longer than the buffer |
| OptionCodec.FixtureFitsLength | tests/ipv6/options/test_option.py:17-20 | allowing exactly the 20 bytes the fixture occupies parses it to the same option and length as giving no length |
| OptionCodec.FixtureValidates | tests/ipv6/options/test_option.py:34-36 | the parsed fixture validates |

## Left out

- Interface lookup, address enumeration, scope-suffix stripping, socket creation and
  multicast join (`if_nametoindex`, netifaces, `create`) are operating-system I/O.
  The interface's addresses are an input to `MulticastInterfaceConfig.ValidateConfig`.
- Logging and `print` calls have no effect on behaviour.
- `option_registry.register` is global mutable registration. Its effect is fixed in
  `OptionCodec.Registered`: codes 82 and 83 map to the two RFC 7083 classes.
- RFC 7083's range of 60 to 86400 seconds is documented in the source but never
  enforced, so the model accepts any value that fits 32 bits.
- The handler chain driver, the fallback handler that answers NoAddrsAvail and
  NoPrefixAvail, and the no-double-allocation property over a whole chain are not
  part of the handler's code.
- The options base module (`Option.parse`, `parse_option_header`, `UnknownOption`,
  `validate`) is not among the modelled source files. Its behaviour is assumed, in a
  form consistent with what the option test case checks:
  - the header is read at the offset;
  - a typed class checks the code;
  - the whole option must fit `length`, or the rest of the buffer when no length is
    given;
  - an unknown option keeps the announced payload as far as the buffer holds it.
- OptionCodec.Validate: the rejection rule is assumed, not taken from code. An unknown
  option is rejected when its code is negative or 2^16 or more (`CodeOutOfRange`), or
  when its payload is 65535 bytes or longer (`DataTooLong`). RFC 7083 options always
  validate.
- The utilities module (`force_status`, `Assignment`, `address_in_prefixes`,
  `prefix_overlaps_prefixes`) is not among the modelled source files either. Its
  behaviour is assumed, minimally:
  - `force_status` drops every status code and appends the new one;
  - an address lies in a prefix when the top bits agree;
  - prefixes overlap when one contains the other.
- Prefixes are compared structurally. This agrees with Python's `IPv6Network`
  equality for normalised networks (host bits zero), which is what `IPv6Network`
  builds by default.
- IA options carry only their iaid and suboptions. T1 and T2 are not modelled,
  because the handler never sets them.
- The NotOnLink status text is kept as the address it names
  (`NotAssignedToYou(address)`), not as a formatted string.
- Python truthiness of address, prefix and option objects is taken to mean "not
  None". None of these classes defines a length or a boolean value.
- FixedDuid.HandleRequest: its own contract states only the reply growth and the
  error cases. What it assigns is stated by FixedDuid.RequestAssignsPrefix,
  FixedDuid.RequestLinkScoping, FixedDuid.RequestAssignsAddress and
  FixedDuid.RequestEvolves, which keeps each proof small.
- OptionCodec.ParseThenSave: requires the buffer to hold the whole option. An
  unknown option read under a declared length that runs past the end of the buffer
  keeps a shorter payload, so saving it gives different bytes.

## Findings

| source | as written | input that shows it | evidently intended | confidence | as-written member | corrected member |
|---|---|---|---|---|---|---|
| dhcp/ipv6/option_handlers/fixed_duid.py:193-202 | Renew/Rebind answers a taken IA_PD with an `IANAOption` and reissues the assigned prefix at the address lifetimes | any Renew carrying an IA_PD whose prefix is the assigned one | an IA_PD answer (`IAPDOption`) with the prefix lifetimes, as Request gives | high; not executed | FixedDuid.RenewIaPdAsWritten, shown wrong by FixedDuid.RenewIaPdAsWrittenIsWrong | FixedDuid.RenewIaPd, used by FixedDuid.HandleRenewRebind |
| dhcp/ipv6/rfc7083.py:55-55 | `load_from` stores the 1-tuple returned by `unpack_from` (line 109 does the same for INF_MAX_RT), so a later `save` passes a tuple to `pack('!HHI', ...)`, which raises | the 8 bytes 0052 0004 0000 0e10 (SOL_MAX_RT of 3600 seconds): loading, then saving raises | store the tuple's single element, so that loading then saving reproduces the bytes | high; not executed | Rfc7083.LoadMaxRtAsWritten, shown wrong by Rfc7083.LoadAsWrittenBreaksSave | Rfc7083.LoadMaxRt, with Rfc7083.SaveThenLoad and Rfc7083.LoadThenSave |

=== FILE: dhcp_options.dfy ===
/** The structured DHCPv6 options the option handlers read and write: client
    identifier, IA_NA / IA_PD with their IA Address / IA Prefix suboptions, and
    Status Code (sections 21.2, 21.4, 21.6, 21.13, 21.21 and 21.22 of RFC 8415). */
module DhcpOptions {
  import opened Ipv6
  import opened Wrappers
  import opened Wire

  /** Status code NotOnLink (section 21.13 of RFC 8415). */
  const STATUS_NOT_ON_LINK: nat := 4

  /** Which kind of identity association an option is. */
  datatype IaKind = NonTemporary | PrefixDelegation

  /** The resource an IA suboption carries: an address (IA_NA) or a prefix (IA_PD). */
  datatype Lease = AddressLease(address: Address) | PrefixLease(prefix: Prefix) {
    function Kind(): IaKind
    {
      if AddressLease? then NonTemporary else PrefixDelegation
    }
  }

  /** A suboption of an IA option: an IA Address / IA Prefix option, or anything else. */
  datatype SubOption =
    | LeaseOption(lease: Lease, preferredLifetime: nat, validLifetime: nat)
    | OtherSubOption(code: nat, data: seq<byte>)

  /** The text of a status code option; only the text the handlers produce is told apart. */
  datatype StatusMessage = NotAssignedToYou(address: Address) | Text(text: string)

  /** A top-level option of a request or reply. */
  datatype DhcpOption =
    | ClientIdOption(duid: seq<byte>)
    | IaOption(kind: IaKind, iaid: nat, options: seq<SubOption>)
    | StatusCodeOption(status: nat, message: StatusMessage)
    | OtherOption(code: nat, data: seq<byte>)

  predicate IsIa(o: DhcpOption, kind: IaKind)
  {
    o.IaOption? && o.kind == kind
  }

  /** The lease values of the suboptions of the given kind, in order
      (`get_options_of_type(IAAddressOption)` / `get_options_of_type(IAPrefixOption)`). */
  function Leases(subs: seq<SubOption>, kind: IaKind): (r: seq<Lease>)
    ensures |r| <= |subs|
    ensures forall j :: 0 <= j < |r| ==> r[j].Kind() == kind
    ensures forall l :: l in r <==> l.Kind() == kind && exists j :: 0 <= j < |subs| && subs[j].LeaseOption? && subs[j].lease == l
  {
    if |subs| == 0 then []
    else
      var rest := Leases(subs[1..], kind);
      assert forall j :: 1 <= j < |subs| ==> subs[j] == subs[1..][j - 1];
      if subs[0].LeaseOption? && subs[0].lease.Kind() == kind then [subs[0].lease] + rest else rest
  }

  /** `Leases` keeps order and multiplicity: the leases of two runs of suboptions are
      those of the first run followed by those of the second, and a single suboption
      contributes its lease exactly when it is a lease of the kind. */
  lemma {:induction false} LeasesAppend(s: seq<SubOption>, t: seq<SubOption>, kind: IaKind)
    ensures Leases(s + t, kind) == Leases(s, kind) + Leases(t, kind)
    ensures |s| == 1 ==>
              Leases(s, kind) == if s[0].LeaseOption? && s[0].lease.Kind() == kind then [s[0].lease] else []
  {
    if |s| > 0 {
      assert (s + t)[1..] == s[1..] + t;
      LeasesAppend(s[1..], t, kind);
    } else {
      assert s + t == t;
    }
  }

  /** The addresses an IA option's IA Address suboptions carry, in order. */
  function Addresses(subs: seq<SubOption>): (r: seq<Address>)
    ensures forall a :: a in r <==> AddressLease(a) in Leases(subs, NonTemporary)
  {
    var ls := Leases(subs, NonTemporary);
    var r := seq(|ls|, j requires 0 <= j < |ls| => ls[j].address);
    assert forall j :: 0 <= j < |ls| ==> ls[j] == AddressLease(r[j]);
    r
  }

  /** The prefixes an IA option's IA Prefix suboptions carry, in order. */
  function Prefixes(subs: seq<SubOption>): (r: seq<Prefix>)
    ensures forall p :: p in r <==> PrefixLease(p) in Leases(subs, PrefixDelegation)
  {
    var ls := Leases(subs, PrefixDelegation);
    var r := seq(|ls|, j requires 0 <= j < |ls| => ls[j].prefix);
    assert forall j :: 0 <= j < |ls| ==> ls[j] == PrefixLease(r[j]);
    r
  }

  /** The options of `options` that are not status codes, in order. */
  function WithoutStatus(options: seq<DhcpOption>): (r: seq<DhcpOption>)
    ensures forall o :: o in r <==> o in options && !o.StatusCodeOption?
  {
    if |options| == 0 then []
    else if options[0].StatusCodeOption? then WithoutStatus(options[1..])
    else [options[0]] + WithoutStatus(options[1..])
  }

  /** `WithoutStatus` keeps order and multiplicity: it filters two runs of options one
      after the other, and keeps a single option exactly when it is not a status code. */
  lemma {:induction false} WithoutStatusAppend(s: seq<DhcpOption>, t: seq<DhcpOption>)
    ensures WithoutStatus(s + t) == WithoutStatus(s) + WithoutStatus(t)
    ensures |s| == 1 ==> WithoutStatus(s) == if s[0].StatusCodeOption? then [] else s
  {
    if |s| > 0 {
      assert (s + t)[1..] == s[1..] + t;
      WithoutStatusAppend(s[1..], t);
    } else {
      assert s + t == t;
    }
  }

  /** `force_status`: replace every status code option of a reply by the given one.
      The utilities module that defines it is not part of this model; this is the
      behaviour the handler relies on. */
  function ForceStatus(options: seq<DhcpOption>, status: nat, message: StatusMessage): (r: seq<DhcpOption>)
    ensures |r| > 0 && r[|r| - 1] == StatusCodeOption(status, message)
    ensures forall i :: 0 <= i < |r| - 1 ==> !r[i].StatusCodeOption?
    ensures forall o :: o in options && !o.StatusCodeOption? ==> o in r
    ensures forall o :: o in r ==> (o in options && !o.StatusCodeOption?) || o == StatusCodeOption(status, message)
  {
    WithoutStatus(options) + [StatusCodeOption(status, message)]
  }

  /** The options before a run keep their place in front of it: forcing a status on
      `s + t` leaves the non-status options of `s`, in order, ahead of the result of
      forcing it on `t`. */
  lemma ForceStatusAppend(s: seq<DhcpOption>, t: seq<DhcpOption>, status: nat, message: StatusMessage)
    ensures ForceStatus(s + t, status, message) == WithoutStatus(s) + ForceStatus(t, status, message)
  {
    WithoutStatusAppend(s, t);
  }

  /** Forcing the same status twice is the same as forcing it once. */
  lemma {:induction false} ForceStatusIdempotent(options: seq<DhcpOption>, status: nat, message: StatusMessage)
    ensures ForceStatus(ForceStatus(options, status, message), status, message) == ForceStatus(options, status, message)
  {
    var w := WithoutStatus(options);
    WithoutStatusAppend(w, [StatusCodeOption(status, message)]);
    WithoutStatusTwice(options);
  }

  /** Filtering out status codes a second time removes nothing more. */
  lemma {:induction false} WithoutStatusTwice(options: seq<DhcpOption>)
    ensures WithoutStatus(WithoutStatus(options)) == WithoutStatus(options)
  {
    if |options| > 0 {
      WithoutStatusTwice(options[1..]);
      if !options[0].StatusCodeOption? {
        WithoutStatusAppend([options[0]], WithoutStatus(options[1..]));
      }
    }
  }

  /** The reply of a Confirm that names a wrong address. */
  function NotOnLink(options: seq<DhcpOption>, address: Address): seq<DhcpOption>
  {
    ForceStatus(options, STATUS_NOT_ON_LINK, NotAssignedToYou(address))
  }

  /** `get_option_of_type(ClientIdOption)`: the DUID of the first client identifier, if any. */
  function ClientDuid(options: seq<DhcpOption>): (r: Option<seq<byte>>)
    ensures r.Some? <==> exists i :: 0 <= i < |options| && options[i].ClientIdOption?
    ensures r.Some? ==> exists i :: 0 <= i < |options| && options[i] == ClientIdOption(r.value) &&
                                    forall j :: 0 <= j < i ==> !options[j].ClientIdOption?
  {
    if |options| == 0 then None
    else if options[0].ClientIdOption? then Some(options[0].duid)
    else
      var r := ClientDuid(options[1..]);
      assert forall j :: 1 <= j < |options| ==> options[j] == options[1..][j - 1];
      r
  }
}

=== FILE: fixed_duid.dfy ===
/** The fixed-DUID option handler: a read-only table maps a client's DUID to at most
    one address and at most one prefix, and the handler answers the request's IA_NA
    and IA_PD options according to the server rules of section 18.3 of RFC 8415. */
module FixedDuid {
  import opened Wrappers
  import opened Ipv6
  import opened Wire
  import opened Sequences
  import opened DhcpOptions
  import opened TransactionBundle

  /** What one client is given; either part may be absent. */
  datatype Assignment = Assignment(address: Option<Address>, prefix: Option<Prefix>)

  datatype HandlerConfig = HandlerConfig(
    mapping: map<seq<byte>, Assignment>,
    responsibleForLinks: seq<Prefix>,
    addressPreferredLifetime: nat,
    addressValidLifetime: nat,
    prefixPreferredLifetime: nat,
    prefixValidLifetime: nat)

  /** The bundle as the handler leaves it, and the error it raised, if any. Changes made
      before an error was raised stay in the bundle, as they do when the handler updates
      its bundle in place. */
  datatype Outcome = Outcome(bundle: Bundle, error: Option<HandlerError>)

  /** The assignment of a DUID; a client missing from the table is given nothing. */
  function Lookup(cfg: HandlerConfig, duid: seq<byte>): Assignment
  {
    if duid in cfg.mapping then cfg.mapping[duid] else Assignment(None, None)
  }

  /** The assigned lease of the given kind, if any. */
  function AssignedLease(a: Assignment, kind: IaKind): (r: Option<Lease>)
    ensures r.Some? ==> r.value.Kind() == kind
  {
    match kind
    case NonTemporary => if a.address.Some? then Some(AddressLease(a.address.value)) else None
    case PrefixDelegation => if a.prefix.Some? then Some(PrefixLease(a.prefix.value)) else None
  }

  /** The request arrived on a link this handler is responsible for. */
  predicate ServesLink(cfg: HandlerConfig, b: Bundle)
  {
    b.linkAddress.Some? && AddressInPrefixes(b.linkAddress.value, cfg.responsibleForLinks)
  }

  /** `o` is an IA option with a suboption carrying exactly `lease`. */
  predicate HoldsLease(o: DhcpOption, lease: Lease)
  {
    o.IaOption? && lease in Leases(o.options, lease.Kind())
  }

  function Select(options: seq<DhcpOption>, idxs: seq<nat>): (r: seq<DhcpOption>)
    requires forall j :: 0 <= j < |idxs| ==> idxs[j] < |options|
    ensures |r| == |idxs| && forall k :: 0 <= k < |idxs| ==> r[k] == options[idxs[k]]
  {
    seq(|idxs|, k requires 0 <= k < |idxs| => options[idxs[k]])
  }

  // ---------------------------------------------------------------------------
  // Solicit / Request

  /** `find_iana_option_for_address` / `find_iapd_option_for_prefix`: the first option
      holding `lease`; failing that the first option; nothing only for an empty list. */
  function FindIaOptionFor(options: seq<DhcpOption>, lease: Lease): (r: Option<nat>)
    ensures r.None? <==> |options| == 0
    ensures r.Some? ==> r.value < |options|
    ensures r.Some? && HoldsLease(options[r.value], lease) ==>
              forall j :: 0 <= j < r.value ==> !HoldsLease(options[j], lease)
    ensures (exists j :: 0 <= j < |options| && HoldsLease(options[j], lease)) ==>
              r.Some? && HoldsLease(options[r.value], lease)
    ensures (forall j :: 0 <= j < |options| ==> !HoldsLease(options[j], lease)) && |options| > 0 ==>
              r == Some(0)
  {
    match FirstWhere(options, o => HoldsLease(o, lease))
    case Some(k) => Some(k)
    case None => if |options| > 0 then Some(0) else None
  }

  /** Every reply option `r` added to `b`, and every option it marked, is an IA of `kind`. */
  ghost predicate OnlyTouches(b: Bundle, r: Bundle, kind: IaKind)
  {
    && |b.reply| <= |r.reply|
    && (forall i :: |b.reply| <= i < |r.reply| ==> IsIa(r.reply[i], kind))
    && forall i :: i in r.handled && i !in b.handled ==>
         i < |b.request.options| && IsIa(b.request.options[i], kind)
  }

  /** One assignment step of `handle_request`: answer the chosen candidate with exactly
      the assigned lease, or do nothing when there is no lease or no candidate. */
  function AssignLease(b: Bundle, candidates: seq<nat>, kind: IaKind, lease: Option<Lease>,
                       preferred: nat, valid: nat): (r: Bundle)
    requires IaIndices(b.request, candidates, kind)
    requires lease.Some? ==> lease.value.Kind() == kind
    ensures r.request == b.request && r.linkAddress == b.linkAddress
    ensures b.handled <= r.handled && b.reply <= r.reply && OnlyTouches(b, r, kind)
    ensures lease.None? || |candidates| == 0 ==> r == b
    ensures lease.Some? && |candidates| > 0 ==>
              var k := FindIaOptionFor(Select(b.request.options, candidates), lease.value).value;
              && r.reply == b.reply + [IaOption(kind, b.request.options[candidates[k]].iaid,
                                                [LeaseOption(lease.value, preferred, valid)])]
              && r.handled == b.handled + {candidates[k]}
  {
    if lease.None? then b
    else
      match FindIaOptionFor(Select(b.request.options, candidates), lease.value)
      case None => b
      case Some(k) =>
        var found := candidates[k];
        var answer := IaOption(kind, b.request.options[found].iaid, [LeaseOption(lease.value, preferred, valid)]);
        MarkHandled(AppendReply(b, answer), found)
  }

  /** `handle_request` (Solicit and Request): the prefix first, then, only on a link
      this handler serves, the address. */
  function HandleRequest(cfg: HandlerConfig, b: Bundle): (r: Outcome)
    ensures b.reply <= r.bundle.reply
    ensures ClientDuid(b.request.options).None? ==> r == Outcome(b, Some(MissingClientId))
    ensures ClientDuid(b.request.options).Some? ==>
              r.error == if b.linkAddress.None? then Some(NoLinkInformation) else None
  {
    match ClientDuid(b.request.options)
    case None => Outcome(b, Some(MissingClientId))
    case Some(duid) =>
      var a := Lookup(cfg, duid);
      var na := Unanswered(b, NonTemporary);
      var pd := Unanswered(b, PrefixDelegation);
      var b1 := AssignLease(b, pd, PrefixDelegation, AssignedLease(a, PrefixDelegation),
                            cfg.prefixPreferredLifetime, cfg.prefixValidLifetime);
      match LinkAddress(b1)
      case Failure(e) => Outcome(b1, Some(e))
      case Success(link) =>
        if !AddressInPrefixes(link, cfg.responsibleForLinks) then Outcome(b1, None)
        else
          var b2 := AssignLease(b1, na, NonTemporary, AssignedLease(a, NonTemporary),
                                cfg.addressPreferredLifetime, cfg.addressValidLifetime);
          Outcome(b2, None)
  }

  /** Solicit/Request is the prefix step, followed by the address step exactly on a
      link the handler serves. */
  lemma RequestSteps(cfg: HandlerConfig, b: Bundle)
    requires ClientDuid(b.request.options).Some?
    ensures var a := Lookup(cfg, ClientDuid(b.request.options).value);
            var b1 := AssignLease(b, Unanswered(b, PrefixDelegation), PrefixDelegation, AssignedLease(a, PrefixDelegation),
                                  cfg.prefixPreferredLifetime, cfg.prefixValidLifetime);
            var b2 := AssignLease(b1, Unanswered(b, NonTemporary), NonTemporary, AssignedLease(a, NonTemporary),
                                  cfg.addressPreferredLifetime, cfg.addressValidLifetime);
            HandleRequest(cfg, b).bundle == if ServesLink(cfg, b) then b2 else b1
  {
  }

  /** Solicit/Request, prefix part: with an assigned prefix and an unanswered IA_PD, the
      first reply option added is an IA_PD for the chosen option carrying only that
      prefix at the prefix lifetimes, every later one is an IA_NA, and the chosen
      option is the only IA_PD newly marked; without an assigned prefix no IA_PD is
      answered or marked. */
  lemma RequestAssignsPrefix(cfg: HandlerConfig, b: Bundle)
    requires ClientDuid(b.request.options).Some?
    ensures var r := HandleRequest(cfg, b).bundle;
            var a := Lookup(cfg, ClientDuid(b.request.options).value);
            var pd := Unanswered(b, PrefixDelegation);
            var options := b.request.options;
            (a.prefix.None? || |pd| == 0 ==> OnlyTouches(b, r, NonTemporary)) &&
            (a.prefix.Some? && |pd| > 0 ==>
               var k := FindIaOptionFor(Select(options, pd), PrefixLease(a.prefix.value)).value;
               && |r.reply| > |b.reply|
               && r.reply[|b.reply|] ==
                    IaOption(PrefixDelegation, options[pd[k]].iaid,
                             [LeaseOption(PrefixLease(a.prefix.value), cfg.prefixPreferredLifetime, cfg.prefixValidLifetime)])
               && (forall i :: |b.reply| < i < |r.reply| ==> IsIa(r.reply[i], NonTemporary))
               && pd[k] in r.handled && pd[k] !in b.handled
               && forall i :: i in r.handled - b.handled ==>
                    i < |options| && (IsIa(options[i], PrefixDelegation) ==> i == pd[k]))
  {
    var a := Lookup(cfg, ClientDuid(b.request.options).value);
    var na := Unanswered(b, NonTemporary);
    var pd := Unanswered(b, PrefixDelegation);
    var b1 := AssignLease(b, pd, PrefixDelegation, AssignedLease(a, PrefixDelegation),
                          cfg.prefixPreferredLifetime, cfg.prefixValidLifetime);
    var b2 := AssignLease(b1, na, NonTemporary, AssignedLease(a, NonTemporary),
                          cfg.addressPreferredLifetime, cfg.addressValidLifetime);
    var r := HandleRequest(cfg, b).bundle;
    RequestSteps(cfg, b);
    assert OnlyTouches(b1, r, NonTemporary) && b1.reply <= r.reply && b1.handled <= r.handled;
    if a.prefix.Some? && |pd| > 0 {
      AssignBeforeAddress(b, r, pd, PrefixLease(a.prefix.value), cfg.prefixPreferredLifetime, cfg.prefixValidLifetime);
    } else {
      assert b1 == b;
    }
  }

  /** The prefix step before anything the address step adds: the one IA_PD answer lands
      first, only IA_NA answers follow, and its option is the only IA_PD newly marked. */
  lemma AssignBeforeAddress(b: Bundle, r: Bundle, pd: seq<nat>, lease: Lease, preferred: nat, valid: nat)
    requires IaIndices(b.request, pd, PrefixDelegation) && |pd| > 0 && lease.Kind() == PrefixDelegation
    requires var b1 := AssignLease(b, pd, PrefixDelegation, Some(lease), preferred, valid);
             b1.reply <= r.reply && b1.handled <= r.handled && OnlyTouches(b1, r, NonTemporary)
    ensures var k := FindIaOptionFor(Select(b.request.options, pd), lease).value;
            && |r.reply| > |b.reply|
            && r.reply[|b.reply|] == IaOption(PrefixDelegation, b.request.options[pd[k]].iaid, [LeaseOption(lease, preferred, valid)])
            && (forall i :: |b.reply| < i < |r.reply| ==> IsIa(r.reply[i], NonTemporary))
            && pd[k] in r.handled
            && forall i :: i in r.handled - b.handled ==>
                 i < |b.request.options| && (IsIa(b.request.options[i], PrefixDelegation) ==> i == pd[k])
  {
    var b1 := AssignLease(b, pd, PrefixDelegation, Some(lease), preferred, valid);
    var k := FindIaOptionFor(Select(b.request.options, pd), lease).value;
    assert b1.handled == b.handled + {pd[k]};
    assert r.reply[|b.reply|] == b1.reply[|b.reply|];
    forall i | i in r.handled - b.handled
      ensures i < |b.request.options| && (IsIa(b.request.options[i], PrefixDelegation) ==> i == pd[k])
    {
      if i != pd[k] {
        assert i in r.handled && i !in b1.handled;
      }
    }
  }

  /** Solicit/Request on a link the handler does not serve (or without a link
      address): only IA_PD options are answered or marked. */
  lemma RequestLinkScoping(cfg: HandlerConfig, b: Bundle)
    requires !ServesLink(cfg, b)
    ensures OnlyTouches(b, HandleRequest(cfg, b).bundle, PrefixDelegation)
  {
    if ClientDuid(b.request.options).Some? {
      var a := Lookup(cfg, ClientDuid(b.request.options).value);
      var pd := Unanswered(b, PrefixDelegation);
      var b1 := AssignLease(b, pd, PrefixDelegation, AssignedLease(a, PrefixDelegation),
                            cfg.prefixPreferredLifetime, cfg.prefixValidLifetime);
      assert OnlyTouches(b, b1, PrefixDelegation);
    }
  }

  /** Solicit/Request, address part: on a served link with an assigned address and an
      unanswered IA_NA, the last reply option added is an IA_NA for the chosen option
      carrying only that address at the address lifetimes, every earlier one is an
      IA_PD, and the chosen option is the only IA_NA newly marked; without an assigned
      address or an unanswered IA_NA, no IA_NA is answered or marked. */
  lemma RequestAssignsAddress(cfg: HandlerConfig, b: Bundle)
    requires ClientDuid(b.request.options).Some?
    ensures var r := HandleRequest(cfg, b).bundle;
            var a := Lookup(cfg, ClientDuid(b.request.options).value);
            var na := Unanswered(b, NonTemporary);
            var options := b.request.options;
            (a.address.None? || |na| == 0 ==> OnlyTouches(b, r, PrefixDelegation)) &&
            (ServesLink(cfg, b) && a.address.Some? && |na| > 0 ==>
               var k := FindIaOptionFor(Select(options, na), AddressLease(a.address.value)).value;
               && |r.reply| > |b.reply|
               && r.reply[|r.reply| - 1] ==
                    IaOption(NonTemporary, options[na[k]].iaid,
                             [LeaseOption(AddressLease(a.address.value), cfg.addressPreferredLifetime, cfg.addressValidLifetime)])
               && (forall i :: |b.reply| <= i < |r.reply| - 1 ==> IsIa(r.reply[i], PrefixDelegation))
               && na[k] in r.handled && na[k] !in b.handled
               && forall i :: i in r.handled - b.handled ==>
                    i < |options| && (IsIa(options[i], NonTemporary) ==> i == na[k]))
  {
    var a := Lookup(cfg, ClientDuid(b.request.options).value);
    var na := Unanswered(b, NonTemporary);
    var pd := Unanswered(b, PrefixDelegation);
    var b1 := AssignLease(b, pd, PrefixDelegation, AssignedLease(a, PrefixDelegation),
                          cfg.prefixPreferredLifetime, cfg.prefixValidLifetime);
    var b2 := AssignLease(b1, na, NonTemporary, AssignedLease(a, NonTemporary),
                          cfg.addressPreferredLifetime, cfg.addressValidLifetime);
    var r := HandleRequest(cfg, b).bundle;
    RequestSteps(cfg, b);
    assert OnlyTouches(b, b1, PrefixDelegation);
    if a.address.None? || |na| == 0 {
      assert b2 == b1;
    } else if ServesLink(cfg, b) {
      assert r == b2;
      AssignAfterPrefix(b, b1, na, AddressLease(a.address.value), cfg.addressPreferredLifetime, cfg.addressValidLifetime);
    }
  }

  /** The address step after the prefix step: the one IA_NA answer lands last, after
      only IA_PD answers, and its option is the only IA_NA newly marked. */
  lemma AssignAfterPrefix(b: Bundle, b1: Bundle, na: seq<nat>, lease: Lease, preferred: nat, valid: nat)
    requires b1.request == b.request && b.reply <= b1.reply && b.handled <= b1.handled
    requires OnlyTouches(b, b1, PrefixDelegation)
    requires IaIndices(b.request, na, NonTemporary) && |na| > 0 && lease.Kind() == NonTemporary
    ensures var r := AssignLease(b1, na, NonTemporary, Some(lease), preferred, valid);
            var k := FindIaOptionFor(Select(b.request.options, na), lease).value;
            && |r.reply| > |b.reply|
            && r.reply[|r.reply| - 1] == IaOption(NonTemporary, b.request.options[na[k]].iaid, [LeaseOption(lease, preferred, valid)])
            && (forall i :: |b.reply| <= i < |r.reply| - 1 ==> IsIa(r.reply[i], PrefixDelegation))
            && na[k] in r.handled
            && forall i :: i in r.handled - b.handled ==>
                 i < |b.request.options| && (IsIa(b.request.options[i], NonTemporary) ==> i == na[k])
  {
    var r := AssignLease(b1, na, NonTemporary, Some(lease), preferred, valid);
    var k := FindIaOptionFor(Select(b.request.options, na), lease).value;
    assert r.handled == b1.handled + {na[k]};
    forall i | |b.reply| <= i < |r.reply| - 1
      ensures IsIa(r.reply[i], PrefixDelegation)
    {
      assert r.reply[i] == b1.reply[i];
    }
    forall i | i in r.handled - b.handled
      ensures i < |b.request.options| && (IsIa(b.request.options[i], NonTemporary) ==> i == na[k])
    {
      if i != na[k] {
        assert i in b1.handled && i !in b.handled;
      }
    }
  }

  // ---------------------------------------------------------------------------
  // Confirm

  /** An address of a Confirm that this handler must reject: on one of its links,
      but not the client's assigned address. */
  predicate Conflicts(cfg: HandlerConfig, granted: Option<Address>, x: Address)
  {
    Some(x) != granted && AddressInPrefixes(x, cfg.responsibleForLinks)
  }

  predicate HasConflict(cfg: HandlerConfig, granted: Option<Address>, o: DhcpOption)
  {
    o.IaOption? && exists x :: x in Addresses(o.options) && Conflicts(cfg, granted, x)
  }

  /** Position `k` of `idxs` is the first whose IA_NA lists a wrong address. */
  predicate FirstConflictAt(cfg: HandlerConfig, granted: Option<Address>, request: Message, idxs: seq<nat>, k: nat)
    requires IaIndices(request, idxs, NonTemporary)
  {
    && k < |idxs| && HasConflict(cfg, granted, request.options[idxs[k]])
    && forall j :: 0 <= j < k ==> !HasConflict(cfg, granted, request.options[idxs[j]])
  }

  /** `o` is an IA option that holds the assigned address. */
  predicate ConfirmsAssigned(granted: Option<Address>, o: DhcpOption)
  {
    o.IaOption? && granted.Some? && granted.value in Addresses(o.options)
  }

  /** The positions among `idxs` whose option holds the assigned address. */
  ghost function Confirmed(granted: Option<Address>, request: Message, idxs: seq<nat>): set<nat>
  {
    set j | j in idxs && j < |request.options| && ConfirmsAssigned(granted, request.options[j])
  }

  /** `after` is the reply `before` with NotOnLink forced for the first address of
      `addrs` that conflicts. */
  predicate RejectsFirstConflict(cfg: HandlerConfig, granted: Option<Address>, addrs: seq<Address>,
                                 before: seq<DhcpOption>, after: seq<DhcpOption>)
  {
    exists i :: && 0 <= i < |addrs| && Conflicts(cfg, granted, addrs[i])
                && (forall j :: 0 <= j < i ==> !Conflicts(cfg, granted, addrs[j]))
                && after == NotOnLink(before, addrs[i])
  }

  /** The state of the Confirm scan: the bundle, and whether it stopped at a wrong address. */
  datatype Scan = Scan(bundle: Bundle, stopped: bool)

  /** The inner loop of `handle_confirm` over the addresses of the option at `idx`:
      the assigned address marks the option and the scan goes on; the first other
      address on a served link forces NotOnLink, marks the option and stops. */
  function ConfirmAddresses(cfg: HandlerConfig, granted: Option<Address>, b: Bundle,
                            idx: nat, addrs: seq<Address>): (r: Scan)
    ensures r.bundle.request == b.request && r.bundle.linkAddress == b.linkAddress
    ensures r.stopped <==> exists i :: 0 <= i < |addrs| && Conflicts(cfg, granted, addrs[i])
    ensures !r.stopped ==>
              && r.bundle.reply == b.reply
              && r.bundle.handled == b.handled + (if granted.Some? && granted.value in addrs then {idx} else {})
    ensures r.stopped ==>
              && r.bundle.handled == b.handled + {idx}
              && exists i :: 0 <= i < |addrs| && Conflicts(cfg, granted, addrs[i]) &&
                             (forall j :: 0 <= j < i ==> !Conflicts(cfg, granted, addrs[j])) &&
                             r.bundle.reply == NotOnLink(b.reply, addrs[i])
    decreases |addrs|
  {
    if |addrs| == 0 then Scan(b, false)
    else
      assert forall i :: 1 <= i < |addrs| ==> addrs[i] == addrs[1..][i - 1];
      if Some(addrs[0]) == granted then
        ConfirmAddresses(cfg, granted, MarkHandled(b, idx), idx, addrs[1..])
      else if AddressInPrefixes(addrs[0], cfg.responsibleForLinks) then
        Scan(MarkHandled(b.(reply := NotOnLink(b.reply, addrs[0])), idx), true)
      else
        ConfirmAddresses(cfg, granted, b, idx, addrs[1..])
  }

  /** The outer loop of `handle_confirm` over the unanswered IA_NA options. */
  function ConfirmOptions(cfg: HandlerConfig, granted: Option<Address>, b: Bundle, idxs: seq<nat>): (r: Scan)
    requires IaIndices(b.request, idxs, NonTemporary)
    ensures r.bundle.request == b.request && r.bundle.linkAddress == b.linkAddress
    ensures b.handled <= r.bundle.handled
    ensures forall i :: i in r.bundle.handled && i !in b.handled ==> i in idxs
    ensures !r.stopped ==> r.bundle.reply == b.reply
    ensures r.stopped ==> exists x :: Conflicts(cfg, granted, x) && r.bundle.reply == NotOnLink(b.reply, x)
    decreases |idxs|
  {
    if |idxs| == 0 then Scan(b, false)
    else
      var s := ConfirmAddresses(cfg, granted, b, idxs[0], Addresses(b.request.options[idxs[0]].options));
      if s.stopped then s
      else ConfirmOptions(cfg, granted, s.bundle, idxs[1..])
  }

  /** `handle_confirm`. */
  function HandleConfirm(cfg: HandlerConfig, b: Bundle): (r: Outcome)
    ensures b.linkAddress.None? ==> r == Outcome(b, Some(NoLinkInformation))
    ensures b.linkAddress.Some? && !ServesLink(cfg, b) ==> r == Outcome(b, None)
    ensures ServesLink(cfg, b) && ClientDuid(b.request.options).None? ==> r == Outcome(b, Some(MissingClientId))
    ensures ServesLink(cfg, b) && ClientDuid(b.request.options).Some? ==> r.error.None?
  {
    match LinkAddress(b)
    case Failure(e) => Outcome(b, Some(e))
    case Success(link) =>
      if !AddressInPrefixes(link, cfg.responsibleForLinks) then Outcome(b, None)
      else
        match ClientDuid(b.request.options)
        case None => Outcome(b, Some(MissingClientId))
        case Some(duid) =>
          var a := Lookup(cfg, duid);
          Outcome(ConfirmOptions(cfg, a.address, b, Unanswered(b, NonTemporary)).bundle, None)
  }

  // ---------------------------------------------------------------------------
  // Renew / Rebind / Release / Decline

  /** Whether Renew, Rebind, Release and Decline take responsibility for `o`: an IA_PD
      whose prefixes overlap the assigned prefix, or an IA_NA with an address on a
      served link (whatever the assignment). */
  predicate Takes(cfg: HandlerConfig, a: Assignment, o: DhcpOption)
  {
    o.IaOption? &&
    match o.kind
    case PrefixDelegation => a.prefix.Some? && PrefixOverlapsPrefixes(a.prefix.value, Prefixes(o.options))
    case NonTemporary => exists x :: x in Addresses(o.options) && AddressInPrefixes(x, cfg.responsibleForLinks)
  }

  /** The positions among `idxs` whose option is taken, in the order of `idxs`. */
  function TakenOptions(cfg: HandlerConfig, a: Assignment, request: Message, idxs: seq<nat>, kind: IaKind): (r: seq<nat>)
    requires IaIndices(request, idxs, kind)
    ensures IaIndices(request, r, kind)
    ensures forall i :: i in r <==> i in idxs && Takes(cfg, a, request.options[i])
    ensures Increasing(idxs) ==> Increasing(r)
  {
    if |idxs| == 0 then []
    else
      var rest := TakenOptions(cfg, a, request, idxs[1..], kind);
      assert forall i :: i in idxs <==> i == idxs[0] || i in idxs[1..];
      IncreasingCons(idxs, rest);
      if Takes(cfg, a, request.options[idxs[0]]) then [idxs[0]] + rest else rest
  }

  /** The reissued suboptions of an IA being renewed: one per lease suboption of `kind`,
      in order, at the given lifetimes when it is the assigned lease and at lifetime 0
      otherwise. */
  function RenewLeases(subs: seq<SubOption>, kind: IaKind, granted: Option<Lease>,
                       preferred: nat, valid: nat): (r: seq<SubOption>)
    ensures |r| == |Leases(subs, kind)|
    ensures forall j :: 0 <= j < |r| ==>
              var l := Leases(subs, kind)[j];
              r[j] == if Some(l) == granted then LeaseOption(l, preferred, valid) else LeaseOption(l, 0, 0)
  {
    if |subs| == 0 then []
    else
      var rest := RenewLeases(subs[1..], kind, granted, preferred, valid);
      RenewLeasesCons(subs, kind, granted, preferred, valid, rest);
      if subs[0].LeaseOption? && subs[0].lease.Kind() == kind then
        var l := subs[0].lease;
        [if Some(l) == granted then LeaseOption(l, preferred, valid) else LeaseOption(l, 0, 0)] + rest
      else rest
  }

  /** The reissued suboptions for `subs`, from those for `subs[1..]`. */
  lemma RenewLeasesCons(subs: seq<SubOption>, kind: IaKind, granted: Option<Lease>,
                        preferred: nat, valid: nat, rest: seq<SubOption>)
    requires |subs| > 0
    requires |rest| == |Leases(subs[1..], kind)|
    requires forall j :: 0 <= j < |rest| ==>
               var l := Leases(subs[1..], kind)[j];
               rest[j] == if Some(l) == granted then LeaseOption(l, preferred, valid) else LeaseOption(l, 0, 0)
    ensures var r := if subs[0].LeaseOption? && subs[0].lease.Kind() == kind
                     then [var l := subs[0].lease;
                           if Some(l) == granted then LeaseOption(l, preferred, valid) else LeaseOption(l, 0, 0)] + rest
                     else rest;
            && |r| == |Leases(subs, kind)|
            && forall j :: 0 <= j < |r| ==>
                 var l := Leases(subs, kind)[j];
                 r[j] == if Some(l) == granted then LeaseOption(l, preferred, valid) else LeaseOption(l, 0, 0)
  {
    var ls := Leases(subs, kind);
    var tail := Leases(subs[1..], kind);
    if subs[0].LeaseOption? && subs[0].lease.Kind() == kind {
      var l := subs[0].lease;
      var r := [if Some(l) == granted then LeaseOption(l, preferred, valid) else LeaseOption(l, 0, 0)] + rest;
      assert ls == [l] + tail;
      forall j | 0 <= j < |r|
        ensures r[j] == if Some(ls[j]) == granted then LeaseOption(ls[j], preferred, valid) else LeaseOption(ls[j], 0, 0)
      {
        if j > 0 {
          assert r[j] == rest[j - 1] && ls[j] == tail[j - 1];
        }
      }
    } else {
      assert ls == tail;
    }
  }

  /** Reissue an IA being renewed: same iaid, wrapped as an IA of `wrapper`, holding the
      reissued `kind` leases of `o`. */
  function RenewIa(wrapper: IaKind, kind: IaKind, granted: Option<Lease>,
                   preferred: nat, valid: nat, o: DhcpOption): DhcpOption
    requires o.IaOption?
  {
    IaOption(wrapper, o.iaid, RenewLeases(o.options, kind, granted, preferred, valid))
  }

  /** The Renew/Rebind answer to a taken IA_PD: an IA_PD with the same iaid, one
      IA Prefix per requested prefix in request order, the assigned prefix at the prefix
      lifetimes and every other prefix withdrawn at lifetime 0. */
  function RenewIaPd(cfg: HandlerConfig, a: Assignment, o: DhcpOption): (r: DhcpOption)
    requires IsIa(o, PrefixDelegation)
    ensures IsIa(r, PrefixDelegation) && r.iaid == o.iaid
    ensures |r.options| == |Prefixes(o.options)|
    ensures forall j :: 0 <= j < |r.options| ==>
              var p := Prefixes(o.options)[j];
              r.options[j] == if Some(p) == a.prefix
                              then LeaseOption(PrefixLease(p), cfg.prefixPreferredLifetime, cfg.prefixValidLifetime)
                              else LeaseOption(PrefixLease(p), 0, 0)
  {
    RenewIa(PrefixDelegation, PrefixDelegation, AssignedLease(a, PrefixDelegation),
            cfg.prefixPreferredLifetime, cfg.prefixValidLifetime, o)
  }

  /** The Renew/Rebind answer to a taken IA_NA: an IA_NA with the same iaid, one
      IA Address per requested address in request order, the assigned address at the
      address lifetimes and every other address withdrawn at lifetime 0. */
  function RenewIaNa(cfg: HandlerConfig, a: Assignment, o: DhcpOption): (r: DhcpOption)
    requires IsIa(o, NonTemporary)
    ensures IsIa(r, NonTemporary) && r.iaid == o.iaid
    ensures |r.options| == |Addresses(o.options)|
    ensures forall j :: 0 <= j < |r.options| ==>
              var x := Addresses(o.options)[j];
              r.options[j] == if Some(x) == a.address
                              then LeaseOption(AddressLease(x), cfg.addressPreferredLifetime, cfg.addressValidLifetime)
                              else LeaseOption(AddressLease(x), 0, 0)
  {
    RenewIa(NonTemporary, NonTemporary, AssignedLease(a, NonTemporary),
            cfg.addressPreferredLifetime, cfg.addressValidLifetime, o)
  }

  /** The IA_PD answer as the Renew/Rebind code builds it: wrapped as an IA_NA, with the
      address lifetimes. */
  function RenewIaPdAsWritten(cfg: HandlerConfig, a: Assignment, o: DhcpOption): (r: DhcpOption)
    requires IsIa(o, PrefixDelegation)
    ensures IsIa(r, NonTemporary) && r.iaid == o.iaid
    ensures forall j :: 0 <= j < |r.options| ==> r.options[j].LeaseOption? && r.options[j].lease.PrefixLease?
  {
    RenewIa(NonTemporary, PrefixDelegation, AssignedLease(a, PrefixDelegation),
            cfg.addressPreferredLifetime, cfg.addressValidLifetime, o)
  }

  /** The Renew/Rebind answer to one taken IA option of `kind`. */
  function Renewal(cfg: HandlerConfig, a: Assignment, kind: IaKind, o: DhcpOption): DhcpOption
    requires IsIa(o, kind)
  {
    match kind
    case PrefixDelegation => RenewIaPd(cfg, a, o)
    case NonTemporary => RenewIaNa(cfg, a, o)
  }

  /** The answers to the taken options, in order. */
  function Renewals(cfg: HandlerConfig, a: Assignment, request: Message, taken: seq<nat>, kind: IaKind): (r: seq<DhcpOption>)
    requires IaIndices(request, taken, kind)
    ensures |r| == |taken|
    ensures forall k :: 0 <= k < |taken| ==> r[k] == Renewal(cfg, a, kind, request.options[taken[k]])
  {
    seq(|taken|, k requires 0 <= k < |taken| => Renewal(cfg, a, kind, request.options[taken[k]]))
  }

  function Elements(s: seq<nat>): set<nat>
  {
    set i | i in s
  }

  /** The request options Renew, Rebind, Release and Decline take responsibility for:
      unanswered IA options that `Takes` accepts. */
  ghost predicate TakenBy(cfg: HandlerConfig, a: Assignment, b: Bundle, i: nat)
  {
    i < |b.request.options| && b.request.options[i].IaOption? && i !in b.handled &&
    Takes(cfg, a, b.request.options[i])
  }

  /** `handle_renew_rebind`: every taken IA_PD, then every taken IA_NA, is answered in
      request order and marked. */
  function HandleRenewRebind(cfg: HandlerConfig, b: Bundle): (r: Outcome)
    ensures ClientDuid(b.request.options).None? ==> r == Outcome(b, Some(MissingClientId))
    ensures ClientDuid(b.request.options).Some? ==>
              var a := Lookup(cfg, ClientDuid(b.request.options).value);
              var pd := TakenOptions(cfg, a, b.request, Unanswered(b, PrefixDelegation), PrefixDelegation);
              var na := TakenOptions(cfg, a, b.request, Unanswered(b, NonTemporary), NonTemporary);
              var options := b.request.options;
              && r.error.None?
              && r.bundle.request == b.request && r.bundle.linkAddress == b.linkAddress
              && (forall i: nat :: i in r.bundle.handled <==> i in b.handled || TakenBy(cfg, a, b, i))
              && RenewedReply(cfg, a, b.request, b.reply, pd, na, r.bundle.reply)
  {
    match ClientDuid(b.request.options)
    case None => Outcome(b, Some(MissingClientId))
    case Some(duid) =>
      var a := Lookup(cfg, duid);
      var pd := TakenOptions(cfg, a, b.request, Unanswered(b, PrefixDelegation), PrefixDelegation);
      var na := TakenOptions(cfg, a, b.request, Unanswered(b, NonTemporary), NonTemporary);
      var pdReplies := Renewals(cfg, a, b.request, pd, PrefixDelegation);
      var naReplies := Renewals(cfg, a, b.request, na, NonTemporary);
      RenewedReplyLayout(cfg, a, b, pd, na);
      TakenHandled(cfg, a, b, pd, na);
      Outcome(b.(reply := b.reply + pdReplies + naReplies, handled := b.handled + Elements(pd) + Elements(na)), None)
  }


  /** `answers` holds the Renew/Rebind answers to the taken IA_PD options `pd`, in order. */
  predicate AnswersPd(cfg: HandlerConfig, a: Assignment, request: Message, pd: seq<nat>, answers: seq<DhcpOption>)
    requires IaIndices(request, pd, PrefixDelegation)
  {
    |answers| == |pd| && forall k :: 0 <= k < |pd| ==> answers[k] == RenewIaPd(cfg, a, request.options[pd[k]])
  }

  /** `answers` holds the Renew/Rebind answers to the taken IA_NA options `na`, in order. */
  predicate AnswersNa(cfg: HandlerConfig, a: Assignment, request: Message, na: seq<nat>, answers: seq<DhcpOption>)
    requires IaIndices(request, na, NonTemporary)
  {
    |answers| == |na| && forall k :: 0 <= k < |na| ==> answers[k] == RenewIaNa(cfg, a, request.options[na[k]])
  }

  /** The Renew/Rebind reply: the earlier answers `prior`, then the answers to the taken
      IA_PD options `pd`, then those to the taken IA_NA options `na`. */
  predicate RenewedReply(cfg: HandlerConfig, a: Assignment, request: Message, prior: seq<DhcpOption>,
                         pd: seq<nat>, na: seq<nat>, reply: seq<DhcpOption>)
    requires IaIndices(request, pd, PrefixDelegation) && IaIndices(request, na, NonTemporary)
  {
    && |reply| == |prior| + |pd| + |na|
    && reply[..|prior|] == prior
    && AnswersPd(cfg, a, request, pd, reply[|prior|..|prior| + |pd|])
    && AnswersNa(cfg, a, request, na, reply[|prior| + |pd|..])
  }

  /** The reply `HandleRenewRebind` builds has the `RenewedReply` layout. */
  lemma RenewedReplyLayout(cfg: HandlerConfig, a: Assignment, b: Bundle, pd: seq<nat>, na: seq<nat>)
    requires IaIndices(b.request, pd, PrefixDelegation) && IaIndices(b.request, na, NonTemporary)
    ensures RenewedReply(cfg, a, b.request, b.reply, pd, na,
                         b.reply + Renewals(cfg, a, b.request, pd, PrefixDelegation)
                                 + Renewals(cfg, a, b.request, na, NonTemporary))
  {
    var pdReplies := Renewals(cfg, a, b.request, pd, PrefixDelegation);
    var naReplies := Renewals(cfg, a, b.request, na, NonTemporary);
    assert AnswersPd(cfg, a, b.request, pd, pdReplies);
    assert AnswersNa(cfg, a, b.request, na, naReplies);
    ConcatParts(b.reply, pdReplies, naReplies);
  }

  /** Marking the taken IA_PD and IA_NA positions marks exactly the options `TakenBy` names. */
  lemma TakenHandled(cfg: HandlerConfig, a: Assignment, b: Bundle, pd: seq<nat>, na: seq<nat>)
    requires pd == TakenOptions(cfg, a, b.request, Unanswered(b, PrefixDelegation), PrefixDelegation)
    requires na == TakenOptions(cfg, a, b.request, Unanswered(b, NonTemporary), NonTemporary)
    ensures forall i: nat :: i in b.handled + Elements(pd) + Elements(na) <==> i in b.handled || TakenBy(cfg, a, b, i)
  {
  }

  /** `handle_release_decline`: mark the options Renew would take, answer nothing. */
  function HandleReleaseDecline(cfg: HandlerConfig, b: Bundle): (r: Outcome)
    ensures ClientDuid(b.request.options).None? ==> r == Outcome(b, Some(MissingClientId))
    ensures ClientDuid(b.request.options).Some? ==>
              var a := Lookup(cfg, ClientDuid(b.request.options).value);
              && r.error.None?
              && r.bundle.request == b.request && r.bundle.linkAddress == b.linkAddress
              && r.bundle.reply == b.reply
              && forall i: nat :: i in r.bundle.handled <==> i in b.handled || TakenBy(cfg, a, b, i)
  {
    match ClientDuid(b.request.options)
    case None => Outcome(b, Some(MissingClientId))
    case Some(duid) =>
      var a := Lookup(cfg, duid);
      var pd := TakenOptions(cfg, a, b.request, Unanswered(b, PrefixDelegation), PrefixDelegation);
      var na := TakenOptions(cfg, a, b.request, Unanswered(b, NonTemporary), NonTemporary);
      Outcome(b.(handled := b.handled + Elements(pd) + Elements(na)), None)
  }

  // ---------------------------------------------------------------------------
  // Dispatch

  /** The message kinds the handler acts on. */
  predicate Dispatched(kind: MessageKind)
  {
    kind.Solicit? || kind.Request? || kind.Confirm? || kind.Renew? || kind.Rebind? ||
    kind.Release? || kind.Decline?
  }

  /** `handle`: dispatch on the kind of the request; other kinds are left alone. */
  function Handle(cfg: HandlerConfig, b: Bundle): (r: Outcome)
    ensures !Dispatched(b.request.kind) ==> r == Outcome(b, None)
    ensures r.error.Some? ==> r.error == Some(MissingClientId) || r.error == Some(NoLinkInformation)
  {
    match b.request.kind
    case Solicit => HandleRequest(cfg, b)
    case Request => HandleRequest(cfg, b)
    case Confirm => HandleConfirm(cfg, b)
    case Renew => HandleRenewRebind(cfg, b)
    case Rebind => HandleRenewRebind(cfg, b)
    case Release => HandleReleaseDecline(cfg, b)
    case Decline => HandleReleaseDecline(cfg, b)
    case _ => Outcome(b, None)
  }

  // ---------------------------------------------------------------------------
  // Properties

  lemma ConfirmedCons(granted: Option<Address>, request: Message, idxs: seq<nat>)
    requires |idxs| > 0
    ensures Confirmed(granted, request, idxs) ==
            Confirmed(granted, request, [idxs[0]]) + Confirmed(granted, request, idxs[1..])
  {
    assert forall j :: j in idxs <==> j == idxs[0] || j in idxs[1..];
  }

  /** The Confirm scan stops exactly when some scanned IA_NA holds a wrong address on
      a served link. */
  lemma {:induction false} ConfirmStopsIffConflict(cfg: HandlerConfig, granted: Option<Address>, b: Bundle, idxs: seq<nat>)
    requires IaIndices(b.request, idxs, NonTemporary)
    ensures ConfirmOptions(cfg, granted, b, idxs).stopped <==>
            exists k :: 0 <= k < |idxs| && HasConflict(cfg, granted, b.request.options[idxs[k]])
    decreases |idxs|
  {
    if |idxs| > 0 {
      var o := b.request.options[idxs[0]];
      var s := ConfirmAddresses(cfg, granted, b, idxs[0], Addresses(o.options));
      if s.stopped {
        ConfirmStoppedFirst(cfg, granted, b, idxs);
        assert ConfirmOptions(cfg, granted, b, idxs) == s;
      } else {
        ConfirmStep(cfg, granted, b, idxs);
        ConfirmStopsIffConflict(cfg, granted, s.bundle, idxs[1..]);
        assert forall k :: 1 <= k < |idxs| ==> idxs[k] == idxs[1..][k - 1];
      }
    }
  }

  /** A Confirm scan that does not stop marks exactly the options holding the assigned
      address. */
  lemma {:induction false} ConfirmAcceptedMarks(cfg: HandlerConfig, granted: Option<Address>, b: Bundle, idxs: seq<nat>)
    requires IaIndices(b.request, idxs, NonTemporary)
    requires !ConfirmOptions(cfg, granted, b, idxs).stopped
    ensures ConfirmOptions(cfg, granted, b, idxs).bundle.handled == b.handled + Confirmed(granted, b.request, idxs)
    decreases |idxs|
  {
    if |idxs| > 0 {
      var o := b.request.options[idxs[0]];
      var s := ConfirmAddresses(cfg, granted, b, idxs[0], Addresses(o.options));
      assert Confirmed(granted, b.request, [idxs[0]]) ==
             if granted.Some? && granted.value in Addresses(o.options) then {idxs[0]} else {};
      ConfirmAcceptedMarks(cfg, granted, s.bundle, idxs[1..]);
      ConfirmedCons(granted, b.request, idxs);
    }
  }

  /** A Confirm scan that stops does so at the first offending option, position `k`:
      it marks the options before it that hold the assigned address, and that option,
      and nothing after it. */
  lemma {:induction false} ConfirmStoppedMarks(cfg: HandlerConfig, granted: Option<Address>, b: Bundle, idxs: seq<nat>)
    returns (k: nat)
    requires IaIndices(b.request, idxs, NonTemporary)
    requires ConfirmOptions(cfg, granted, b, idxs).stopped
    ensures FirstConflictAt(cfg, granted, b.request, idxs, k)
    ensures ConfirmOptions(cfg, granted, b, idxs).bundle.handled ==
              b.handled + Confirmed(granted, b.request, idxs[..k]) + {idxs[k]}
    decreases |idxs|
  {
    var s := ConfirmAddresses(cfg, granted, b, idxs[0], Addresses(b.request.options[idxs[0]].options));
    if s.stopped {
      k := 0;
      ConfirmStoppedFirst(cfg, granted, b, idxs);
      ConfirmedNone(granted, b.request, idxs);
    } else {
      ConfirmStep(cfg, granted, b, idxs);
      var k' := ConfirmStoppedMarks(cfg, granted, s.bundle, idxs[1..]);
      k := k' + 1;
      var h := ConfirmOptions(cfg, granted, s.bundle, idxs[1..]).bundle.handled;
      assert h == b.handled + Confirmed(granted, b.request, idxs[..k]) + {idxs[k]} by {
        StoppedHandled(granted, b.request, idxs, k', b.handled, s.bundle.handled, h);
      }
      ConflictShift(cfg, granted, b.request, idxs, k);
    }
  }

  /** A Confirm scan that stops does so at the first offending option, position `k`,
      and its reply is NotOnLink for the first wrong address that option lists. */
  lemma {:induction false} ConfirmStoppedReply(cfg: HandlerConfig, granted: Option<Address>, b: Bundle, idxs: seq<nat>)
    returns (k: nat)
    requires IaIndices(b.request, idxs, NonTemporary)
    requires ConfirmOptions(cfg, granted, b, idxs).stopped
    ensures FirstConflictAt(cfg, granted, b.request, idxs, k)
    ensures RejectsFirstConflict(cfg, granted, Addresses(b.request.options[idxs[k]].options),
                                 b.reply, ConfirmOptions(cfg, granted, b, idxs).bundle.reply)
    decreases |idxs|
  {
    var s := ConfirmAddresses(cfg, granted, b, idxs[0], Addresses(b.request.options[idxs[0]].options));
    if s.stopped {
      k := 0;
      ConfirmStoppedFirst(cfg, granted, b, idxs);
      ConfirmStoppedFirstReply(cfg, granted, b, idxs);
    } else {
      ConfirmStep(cfg, granted, b, idxs);
      var k' := ConfirmStoppedReply(cfg, granted, s.bundle, idxs[1..]);
      k := k' + 1;
      assert s.bundle.request == b.request;
      ConflictShift(cfg, granted, b.request, idxs, k);
      var after := ConfirmOptions(cfg, granted, s.bundle, idxs[1..]).bundle.reply;
      assert RejectsFirstConflict(cfg, granted, Addresses(b.request.options[idxs[k]].options), b.reply, after) by {
        RejectsShift(cfg, granted, b.request, idxs, k, s.bundle.reply, after);
      }
    }
  }

  /** Rejection by the option at position `k - 1` of the rest of `idxs` is rejection by
      the option at position `k` of `idxs`. */
  lemma RejectsShift(cfg: HandlerConfig, granted: Option<Address>, request: Message, idxs: seq<nat>, k: nat,
                     before: seq<DhcpOption>, after: seq<DhcpOption>)
    requires IaIndices(request, idxs, NonTemporary) && 0 < k < |idxs|
    requires RejectsFirstConflict(cfg, granted, Addresses(request.options[idxs[1..][k - 1]].options), before, after)
    ensures RejectsFirstConflict(cfg, granted, Addresses(request.options[idxs[k]].options), before, after)
  {
    assert idxs[1..][k - 1] == idxs[k];
  }

  /** Position `k - 1` of the rest of `idxs` is position `k` of `idxs`. */
  lemma ConflictShift(cfg: HandlerConfig, granted: Option<Address>, request: Message, idxs: seq<nat>, k: nat)
    requires IaIndices(request, idxs, NonTemporary) && 0 < k < |idxs|
    requires !HasConflict(cfg, granted, request.options[idxs[0]])
    requires FirstConflictAt(cfg, granted, request, idxs[1..], k - 1)
    ensures FirstConflictAt(cfg, granted, request, idxs, k)
  {
    assert idxs[1..][k - 1] == idxs[k];
    forall j | 0 <= j < k
      ensures !HasConflict(cfg, granted, request.options[idxs[j]])
    {
      if j > 0 {
        assert idxs[j] == idxs[1..][j - 1];
      }
    }
  }

  /** A Confirm scan that goes past its first option marks it when it holds the
      assigned address and continues with the rest. */
  lemma ConfirmStep(cfg: HandlerConfig, granted: Option<Address>, b: Bundle, idxs: seq<nat>)
    requires IaIndices(b.request, idxs, NonTemporary) && |idxs| > 0
    requires !ConfirmAddresses(cfg, granted, b, idxs[0], Addresses(b.request.options[idxs[0]].options)).stopped
    ensures
      var s := ConfirmAddresses(cfg, granted, b, idxs[0], Addresses(b.request.options[idxs[0]].options));
      && !HasConflict(cfg, granted, b.request.options[idxs[0]])
      && s.bundle.request == b.request && s.bundle.reply == b.reply
      && s.bundle.handled == b.handled + Confirmed(granted, b.request, [idxs[0]])
      && ConfirmOptions(cfg, granted, b, idxs) == ConfirmOptions(cfg, granted, s.bundle, idxs[1..])
  {
    var o := b.request.options[idxs[0]];
    assert Confirmed(granted, b.request, [idxs[0]]) ==
           if granted.Some? && granted.value in Addresses(o.options) then {idxs[0]} else {};
  }

  /** A Confirm scan that stops in its first option marks only that option. */
  lemma ConfirmStoppedFirst(cfg: HandlerConfig, granted: Option<Address>, b: Bundle, idxs: seq<nat>)
    requires IaIndices(b.request, idxs, NonTemporary) && |idxs| > 0
    requires ConfirmAddresses(cfg, granted, b, idxs[0], Addresses(b.request.options[idxs[0]].options)).stopped
    ensures HasConflict(cfg, granted, b.request.options[idxs[0]])
    ensures ConfirmOptions(cfg, granted, b, idxs).bundle.handled == b.handled + {idxs[0]}
  {
  }

  /** No position comes before the first. */
  lemma ConfirmedNone(granted: Option<Address>, request: Message, idxs: seq<nat>)
    ensures Confirmed(granted, request, idxs[..0]) == {}
  {
    assert idxs[..0] == [];
  }

  /** A Confirm scan that stops in its first option rejects that option's first wrong
      address. */
  lemma ConfirmStoppedFirstReply(cfg: HandlerConfig, granted: Option<Address>, b: Bundle, idxs: seq<nat>)
    requires IaIndices(b.request, idxs, NonTemporary) && |idxs| > 0
    requires ConfirmAddresses(cfg, granted, b, idxs[0], Addresses(b.request.options[idxs[0]].options)).stopped
    ensures RejectsFirstConflict(cfg, granted, Addresses(b.request.options[idxs[0]].options),
                                 b.reply, ConfirmOptions(cfg, granted, b, idxs).bundle.reply)
  {
    var addrs := Addresses(b.request.options[idxs[0]].options);
    assert ConfirmOptions(cfg, granted, b, idxs) == ConfirmAddresses(cfg, granted, b, idxs[0], addrs);
  }

  /** The handled set after stopping at position `k + 1`, from the one after stopping at
      position `k` of the rest of the scan. */
  lemma StoppedHandled(granted: Option<Address>, request: Message, idxs: seq<nat>, k: nat,
                       h0: set<nat>, h1: set<nat>, h2: set<nat>)
    requires k < |idxs| - 1
    requires h1 == h0 + Confirmed(granted, request, [idxs[0]])
    requires h2 == h1 + Confirmed(granted, request, idxs[1..][..k]) + {idxs[1..][k]}
    ensures h2 == h0 + Confirmed(granted, request, idxs[..k + 1]) + {idxs[k + 1]}
  {
    ConfirmedPrefixCons(granted, request, idxs, k);
  }

  lemma ConfirmedPrefixCons(granted: Option<Address>, request: Message, idxs: seq<nat>, k: nat)
    requires k < |idxs| - 1
    ensures Confirmed(granted, request, idxs[..k + 1]) ==
            Confirmed(granted, request, [idxs[0]]) + Confirmed(granted, request, idxs[1..][..k])
  {
    assert idxs[..k + 1][0] == idxs[0] && idxs[..k + 1][1..] == idxs[1..][..k];
    ConfirmedCons(granted, request, idxs[..k + 1]);
  }

  /** Confirm on a served link from a known client: if an unanswered IA_NA holds a
      wrong address on a served link, the reply ends in the one and only status code,
      NotOnLink, naming such an address; otherwise the reply is unchanged and exactly
      the unanswered IA_NA options holding the assigned address are marked. */
  lemma ConfirmOutcome(cfg: HandlerConfig, b: Bundle)
    requires ServesLink(cfg, b) && ClientDuid(b.request.options).Some?
    ensures var r := HandleConfirm(cfg, b).bundle;
            var a := Lookup(cfg, ClientDuid(b.request.options).value);
            var na := Unanswered(b, NonTemporary);
            var conflict := exists k :: 0 <= k < |na| && HasConflict(cfg, a.address, b.request.options[na[k]]);
            && (!conflict ==> r.reply == b.reply && r.handled == b.handled + Confirmed(a.address, b.request, na))
            && (conflict ==>
                  && |r.reply| > 0
                  && r.reply[|r.reply| - 1].StatusCodeOption?
                  && r.reply[|r.reply| - 1].status == STATUS_NOT_ON_LINK
                  && (forall i :: 0 <= i < |r.reply| - 1 ==> !r.reply[i].StatusCodeOption?)
                  && exists k :: && 0 <= k < |na|
                                 && (forall j :: 0 <= j < k ==> !HasConflict(cfg, a.address, b.request.options[na[j]]))
                                 && RejectsFirstConflict(cfg, a.address, Addresses(b.request.options[na[k]].options),
                                                         b.reply, r.reply))
  {
    var a := Lookup(cfg, ClientDuid(b.request.options).value);
    var na := Unanswered(b, NonTemporary);
    ConfirmStopsIffConflict(cfg, a.address, b, na);
    if !ConfirmOptions(cfg, a.address, b, na).stopped {
      ConfirmAcceptedMarks(cfg, a.address, b, na);
    } else {
      var k := ConfirmStoppedReply(cfg, a.address, b, na);
      RejectedReply(cfg, a.address, Addresses(b.request.options[na[k]].options), b.reply,
                    ConfirmOptions(cfg, a.address, b, na).bundle.reply);
      assert HandleConfirm(cfg, b).bundle == ConfirmOptions(cfg, a.address, b, na).bundle;
    }
  }

  /** A reply that rejects a wrong address ends in the one and only status code, NotOnLink. */
  lemma RejectedReply(cfg: HandlerConfig, granted: Option<Address>, addrs: seq<Address>,
                      before: seq<DhcpOption>, after: seq<DhcpOption>)
    requires RejectsFirstConflict(cfg, granted, addrs, before, after)
    ensures && |after| > 0
            && after[|after| - 1].StatusCodeOption?
            && after[|after| - 1].status == STATUS_NOT_ON_LINK
            && (forall i :: 0 <= i < |after| - 1 ==> !after[i].StatusCodeOption?)
  {
    var i :| 0 <= i < |addrs| && after == NotOnLink(before, addrs[i]);
  }

  /** Confirm that hits a wrong address stops at the first unanswered IA_NA holding one:
      it marks the options before it that hold the assigned address, that option, and
      nothing after it. */
  lemma ConfirmConflictMarks(cfg: HandlerConfig, b: Bundle)
    requires ServesLink(cfg, b) && ClientDuid(b.request.options).Some?
    requires var a := Lookup(cfg, ClientDuid(b.request.options).value);
             var na := Unanswered(b, NonTemporary);
             exists k :: 0 <= k < |na| && HasConflict(cfg, a.address, b.request.options[na[k]])
    ensures var r := HandleConfirm(cfg, b).bundle;
            var a := Lookup(cfg, ClientDuid(b.request.options).value);
            var na := Unanswered(b, NonTemporary);
            exists k :: && 0 <= k < |na|
                        && HasConflict(cfg, a.address, b.request.options[na[k]])
                        && (forall j :: 0 <= j < k ==> !HasConflict(cfg, a.address, b.request.options[na[j]]))
                        && r.handled == b.handled + Confirmed(a.address, b.request, na[..k]) + {na[k]}
                        && RejectsFirstConflict(cfg, a.address, Addresses(b.request.options[na[k]].options),
                                                b.reply, r.reply)
  {
    var a := Lookup(cfg, ClientDuid(b.request.options).value);
    var na := Unanswered(b, NonTemporary);
    ConfirmStopsIffConflict(cfg, a.address, b, na);
    var k := ConfirmStoppedAt(cfg, a.address, b, na);
    var r := HandleConfirm(cfg, b).bundle;
    assert r == ConfirmOptions(cfg, a.address, b, na).bundle;
  }

  /** A Confirm scan that stops does so at the first offending option, position `k`,
      with both the marks and the reply that position determines. */
  lemma ConfirmStoppedAt(cfg: HandlerConfig, granted: Option<Address>, b: Bundle, idxs: seq<nat>)
    returns (k: nat)
    requires IaIndices(b.request, idxs, NonTemporary)
    requires ConfirmOptions(cfg, granted, b, idxs).stopped
    ensures FirstConflictAt(cfg, granted, b.request, idxs, k)
    ensures ConfirmOptions(cfg, granted, b, idxs).bundle.handled ==
              b.handled + Confirmed(granted, b.request, idxs[..k]) + {idxs[k]}
    ensures RejectsFirstConflict(cfg, granted, Addresses(b.request.options[idxs[k]].options),
                                 b.reply, ConfirmOptions(cfg, granted, b, idxs).bundle.reply)
  {
    k := ConfirmStoppedMarks(cfg, granted, b, idxs);
    var k2 := ConfirmStoppedReply(cfg, granted, b, idxs);
    FirstConflictUnique(cfg, granted, b.request, idxs, k, k2);
  }

  /** Only one position can be the first offending option. */
  lemma FirstConflictUnique(cfg: HandlerConfig, granted: Option<Address>, request: Message, idxs: seq<nat>,
                            k1: nat, k2: nat)
    requires IaIndices(request, idxs, NonTemporary)
    requires FirstConflictAt(cfg, granted, request, idxs, k1) && FirstConflictAt(cfg, granted, request, idxs, k2)
    ensures k1 == k2
  {}

  lemma OnlyTouchesEvolves(b: Bundle, r: Bundle, kind: IaKind)
    requires r.request == b.request && r.linkAddress == b.linkAddress && b.handled <= r.handled
    requires OnlyTouches(b, r, kind)
    ensures Evolves(b, r)
  {}

  /** In every branch the handler keeps the request and link, only adds to the handled
      set, marks only IA options that were not yet handled, and only appends to the
      reply, except that a Confirm may replace the status codes by one NotOnLink. */
  lemma HandleEvolves(cfg: HandlerConfig, b: Bundle)
    ensures var r := Handle(cfg, b).bundle;
            && Evolves(b, r)
            && (!b.request.kind.Confirm? ==> b.reply <= r.reply)
            && (b.request.kind.Confirm? ==>
                  r.reply == b.reply ||
                  exists x :: AddressInPrefixes(x, cfg.responsibleForLinks) && r.reply == NotOnLink(b.reply, x))
  {
    var r := Handle(cfg, b).bundle;
    match ClientDuid(b.request.options)
    case None =>
    case Some(duid) =>
      var a := Lookup(cfg, duid);
      match b.request.kind
      case Solicit => RequestEvolves(cfg, b);
      case Request => RequestEvolves(cfg, b);
      case Confirm =>
        if ServesLink(cfg, b) {
          var na := Unanswered(b, NonTemporary);
          assert r == ConfirmOptions(cfg, a.address, b, na).bundle;
        }
      case Renew =>
      case Rebind =>
      case Release =>
      case Decline =>
      case _ =>
  }

  lemma RequestEvolves(cfg: HandlerConfig, b: Bundle)
    requires ClientDuid(b.request.options).Some?
    ensures Evolves(b, HandleRequest(cfg, b).bundle)
  {
    var a := Lookup(cfg, ClientDuid(b.request.options).value);
    var na := Unanswered(b, NonTemporary);
    var pd := Unanswered(b, PrefixDelegation);
    var b1 := AssignLease(b, pd, PrefixDelegation, AssignedLease(a, PrefixDelegation),
                          cfg.prefixPreferredLifetime, cfg.prefixValidLifetime);
    var b2 := AssignLease(b1, na, NonTemporary, AssignedLease(a, NonTemporary),
                          cfg.addressPreferredLifetime, cfg.addressValidLifetime);
    var r := HandleRequest(cfg, b).bundle;
    RequestSteps(cfg, b);
    OnlyTouchesEvolves(b, b1, PrefixDelegation);
    if r == b2 {
      OnlyTouchesEvolves(b1, b2, NonTemporary);
      EvolvesTrans(b, b1, b2);
    }
  }

  /** Renew/Rebind from a client the table does not know: no IA_PD is answered, and
      every IA_NA answered withdraws all its addresses at lifetime 0. */
  lemma UnknownClientWithdrawn(cfg: HandlerConfig, b: Bundle)
    requires ClientDuid(b.request.options).Some? && ClientDuid(b.request.options).value !in cfg.mapping
    ensures var r := HandleRenewRebind(cfg, b).bundle;
            && b.reply <= r.reply
            && forall k :: |b.reply| <= k < |r.reply| ==> Withdrawn(r.reply[k])
  {
    var a := Lookup(cfg, ClientDuid(b.request.options).value);
    var pd := TakenOptions(cfg, a, b.request, Unanswered(b, PrefixDelegation), PrefixDelegation);
    var na := TakenOptions(cfg, a, b.request, Unanswered(b, NonTemporary), NonTemporary);
    var added := Renewals(cfg, a, b.request, na, NonTemporary);
    AllWithdrawn(cfg, a, b.request, na);
    NothingTakenWithoutPrefix(cfg, a, b.request, Unanswered(b, PrefixDelegation));
    var r := HandleRenewRebind(cfg, b).bundle;
    assert RenewedReply(cfg, a, b.request, b.reply, pd, na, r.reply);
    var tail := r.reply[|b.reply|..];
    assert AnswersNa(cfg, a, b.request, na, tail);
    forall k | |b.reply| <= k < |r.reply|
      ensures Withdrawn(r.reply[k])
    {
      assert r.reply[k] == tail[k - |b.reply|] == added[k - |b.reply|];
    }
  }

  /** Without an assigned prefix no IA_PD is taken, since `Takes` needs a prefix for
      an IA_PD; shown one position at a time along the filter. */
  lemma {:induction false} NothingTakenWithoutPrefix(cfg: HandlerConfig, a: Assignment, request: Message, idxs: seq<nat>)
    requires a.prefix.None? && IaIndices(request, idxs, PrefixDelegation)
    ensures TakenOptions(cfg, a, request, idxs, PrefixDelegation) == []
  {
    if |idxs| > 0 {
      NothingTakenWithoutPrefix(cfg, a, request, idxs[1..]);
    }
  }

  /** An IA_NA answer that withdraws every address it lists. */
  predicate Withdrawn(o: DhcpOption)
  {
    IsIa(o, NonTemporary) &&
    forall j :: 0 <= j < |o.options| ==>
      o.options[j].LeaseOption? && o.options[j].preferredLifetime == 0 && o.options[j].validLifetime == 0
  }

  /** Without an assigned address, every IA_NA renewal withdraws. */
  lemma AllWithdrawn(cfg: HandlerConfig, a: Assignment, request: Message, taken: seq<nat>)
    requires a.address.None? && IaIndices(request, taken, NonTemporary)
    ensures forall k :: 0 <= k < |taken| ==> Withdrawn(Renewals(cfg, a, request, taken, NonTemporary)[k])
  {
    forall k | 0 <= k < |taken|
      ensures Withdrawn(Renewals(cfg, a, request, taken, NonTemporary)[k])
    {
      var o := RenewIaNa(cfg, a, request.options[taken[k]]);
      assert Renewals(cfg, a, request, taken, NonTemporary)[k] == o;
    }
  }

  /** Release and Decline mark exactly the options Renew and Rebind would answer. */
  lemma ReleaseMarksWhatRenewTakes(cfg: HandlerConfig, b: Bundle)
    ensures HandleReleaseDecline(cfg, b).bundle.handled == HandleRenewRebind(cfg, b).bundle.handled
  {}

  /** The IA_PD answer as written differs from the corrected one for every input: it is
      an IA_NA, and its renewed prefix carries the address lifetimes. */
  lemma RenewIaPdAsWrittenIsWrong(cfg: HandlerConfig, a: Assignment, o: DhcpOption)
    requires IsIa(o, PrefixDelegation)
    ensures RenewIaPdAsWritten(cfg, a, o) != RenewIaPd(cfg, a, o)
    ensures a.prefix.Some? && PrefixLease(a.prefix.value) in Leases(o.options, PrefixDelegation) ==>
              exists j :: 0 <= j < |RenewIaPdAsWritten(cfg, a, o).options| &&
                          RenewIaPdAsWritten(cfg, a, o).options[j] ==
                            LeaseOption(PrefixLease(a.prefix.value), cfg.addressPreferredLifetime, cfg.addressValidLifetime)
  {
    if a.prefix.Some? && PrefixLease(a.prefix.value) in Leases(o.options, PrefixDelegation) {
      var ls := Leases(o.options, PrefixDelegation);
      var j :| 0 <= j < |ls| && ls[j] == PrefixLease(a.prefix.value);
      assert RenewIaPdAsWritten(cfg, a, o).options[j] ==
               LeaseOption(PrefixLease(a.prefix.value), cfg.addressPreferredLifetime, cfg.addressValidLifetime);
    }
  }
}

=== FILE: ipv6.dfy ===
/** IPv6 addresses as 128-bit numbers and the prefix geometry used by the option
    handlers: "is this address inside one of these prefixes" and "does this prefix
    overlap one of these prefixes". */
module Ipv6 {

  /** 2^128: one more than the largest IPv6 address. */
  const ADDRESS_SPACE: nat := 0x1_0000_0000_0000_0000_0000_0000_0000_0000

  /** An IPv6 address, read as a 128-bit unsigned number (most significant bit first). */
  type Address = a: int | 0 <= a < ADDRESS_SPACE

  type PrefixLength = n: int | 0 <= n <= 128

  /** An IPv6 network `network/length`. Prefixes built by Python's `IPv6Network` are
      normalised (host bits zero); the model compares prefixes structurally, which
      agrees with Python's equality for normalised prefixes. */
  datatype Prefix = Prefix(network: Address, length: PrefixLength)

  function Pow2(n: nat): (r: nat)
    ensures r > 0
  {
    if n == 0 then 1 else 2 * Pow2(n - 1)
  }

  /** The number of addresses covered by a prefix of the given length. */
  function HostSpan(length: PrefixLength): nat
  {
    Pow2(128 - length)
  }

  /** The top `length` bits of `a`. */
  function TopBits(a: Address, length: PrefixLength): int
  {
    a / HostSpan(length)
  }

  /** `a` lies in `p`: the top `p.length` bits of both agree. */
  predicate InPrefix(a: Address, p: Prefix)
  {
    TopBits(a, p.length) == TopBits(p.network, p.length)
  }

  /** `address_in_prefixes`: `a` lies in at least one of `prefixes`. */
  predicate AddressInPrefixes(a: Address, prefixes: seq<Prefix>)
  {
    exists i :: 0 <= i < |prefixes| && InPrefix(a, prefixes[i])
  }

  /** `outer` contains the whole of `inner`. */
  predicate Contains(outer: Prefix, inner: Prefix)
  {
    outer.length <= inner.length && InPrefix(inner.network, outer)
  }

  /** Two CIDR prefixes overlap exactly when one contains the other. */
  predicate Overlaps(p: Prefix, q: Prefix)
  {
    Contains(p, q) || Contains(q, p)
  }

  /** `prefix_overlaps_prefixes`: `p` overlaps at least one of `prefixes`. */
  predicate PrefixOverlapsPrefixes(p: Prefix, prefixes: seq<Prefix>)
  {
    exists i :: 0 <= i < |prefixes| && Overlaps(p, prefixes[i])
  }

  // ---------------------------------------------------------------------------
  // Arithmetic facts

  lemma {:induction false} Pow2Add(a: nat, b: nat)
    ensures Pow2(a + b) == Pow2(a) * Pow2(b)
  {
    if a > 0 {
      Pow2Add(a - 1, b);
    }
  }

  /** The powers of two the fixed address ranges are built from. */
  lemma Pow2Values()
    ensures Pow2(128) == ADDRESS_SPACE
    ensures Pow2(120) == 0x1_0000_0000_0000_0000_0000_0000_0000_00
    ensures Pow2(118) == 0x40_0000_0000_0000_0000_0000_0000_0000
  {
    assert Pow2(8) == 0x100;
    Pow2Add(8, 8);
    assert Pow2(16) == 0x1_0000;
    Pow2Add(16, 16);
    assert Pow2(32) == 0x1_0000_0000;
    Pow2Add(32, 32);
    assert Pow2(64) == 0x1_0000_0000_0000_0000;
    Pow2Add(64, 64);
    Pow2Add(64, 32);
    assert Pow2(96) == 0x1_0000_0000_0000_0000_0000_0000;
    Pow2Add(96, 16);
    assert Pow2(112) == 0x1_0000_0000_0000_0000_0000_0000_0000;
    Pow2Add(112, 8);
    assert Pow2(2) == 4;
    Pow2Add(118, 2);
  }

  lemma MulLe(a: int, b: int, d: int)
    requires a <= b && d > 0
    ensures a * d <= b * d
  {}

  /** Euclidean division pinned down by bounds. */
  lemma DivChar(x: int, d: int, q: int)
    requires d > 0
    ensures x / d == q <==> q * d <= x < q * d + d
  {
    var q0 := x / d;
    assert x == q0 * d + x % d;
    if q0 < q { MulLe(q0 + 1, q, d); }
    if q0 > q { MulLe(q + 1, q0, d); }
  }

  lemma DivDiv(x: nat, a: nat, b: nat)
    requires a > 0 && b > 0
    ensures x / (a * b) == (x / a) / b
  {
    var q, r := x / a, x % a;
    var q2, r2 := q / b, q % b;
    assert x == a * q + r;
    assert q == b * q2 + r2;
    assert x == (a * b) * q2 + (a * r2 + r) by {
      assert a * q == a * (b * q2) + a * r2;
    }
    assert a * r2 + r < a * b by {
      MulLe(r2, b - 1, a);
      assert (b - 1) * a == a * b - a;
    }
    assert 0 <= a * r2;
    DivChar(x, a * b, q2);
  }

  /** The top `short` bits are the top `short` bits of the top `long` bits. */
  lemma TopBitsOfTopBits(a: Address, short: PrefixLength, long: PrefixLength)
    requires short <= long
    ensures TopBits(a, short) == TopBits(a, long) / Pow2(long - short)
  {
    Pow2Add(128 - long, long - short);
    DivDiv(a, Pow2(128 - long), Pow2(long - short));
  }

  // ---------------------------------------------------------------------------
  // Geometry

  /** Every prefix contains its own network address. */
  lemma NetworkInOwnPrefix(p: Prefix)
    ensures InPrefix(p.network, p)
  {}

  /** Overlap, defined as containment one way or the other, means exactly that
      the two prefixes share an address. */
  lemma OverlapsIffCommonAddress(p: Prefix, q: Prefix)
    ensures Overlaps(p, q) <==> exists a: Address :: InPrefix(a, p) && InPrefix(a, q)
  {
    if Contains(p, q) {
      assert InPrefix(q.network, p) && InPrefix(q.network, q);
    } else if Contains(q, p) {
      assert InPrefix(p.network, p) && InPrefix(p.network, q);
    }
    if a: Address :| InPrefix(a, p) && InPrefix(a, q) {
      if p.length <= q.length {
        CommonAddressContains(a, p, q);
      } else {
        CommonAddressContains(a, q, p);
      }
    }
  }

  lemma CommonAddressContains(a: Address, outer: Prefix, inner: Prefix)
    requires outer.length <= inner.length
    requires InPrefix(a, outer) && InPrefix(a, inner)
    ensures Contains(outer, inner)
  {
    TopBitsOfTopBits(a, outer.length, inner.length);
    TopBitsOfTopBits(inner.network, outer.length, inner.length);
  }

  /** A prefix overlaps a list of prefixes iff it shares an address with one of them. */
  lemma OverlapsPrefixesIffCommonAddress(p: Prefix, prefixes: seq<Prefix>)
    ensures PrefixOverlapsPrefixes(p, prefixes) <==>
            exists i, a: Address :: 0 <= i < |prefixes| && InPrefix(a, p) && InPrefix(a, prefixes[i])
  {
    if PrefixOverlapsPrefixes(p, prefixes) {
      var i :| 0 <= i < |prefixes| && Overlaps(p, prefixes[i]);
      OverlapsIffCommonAddress(p, prefixes[i]);
    }
    if i, a: Address :| 0 <= i < |prefixes| && InPrefix(a, p) && InPrefix(a, prefixes[i]) {
      OverlapsIffCommonAddress(p, prefixes[i]);
    }
  }
}

=== FILE: multicast_interface_config.dfy ===
/** The address rules of the multicast-interface listener's configuration: which
    addresses count as global unicast (the address-type table of section 2.4 of
    RFC 4291), and how the reply-from and link addresses are chosen from, or checked
    against, the addresses already enumerated on the interface. */
module MulticastInterfaceConfig {
  import opened Wrappers
  import opened Ipv6
  import opened Sequences

  /** `::` */
  const UNSPECIFIED: Address := 0
  /** `::1` */
  const LOOPBACK: Address := 1
  /** `ff00::/8` */
  const MULTICAST: Prefix := Prefix(0xff00_0000_0000_0000_0000_0000_0000_0000, 8)
  /** `fe80::/10` */
  const LINK_LOCAL: Prefix := Prefix(0xfe80_0000_0000_0000_0000_0000_0000_0000, 10)

  /** Python's `IPv6Address.is_link_local`: membership of `fe80::/10`. */
  predicate IsLinkLocal(a: Address)
  {
    InPrefix(a, LINK_LOCAL)
  }

  /** `is_global_unicast`: neither unspecified, loopback, multicast nor link-local. */
  predicate IsGlobalUnicast(a: Address)
  {
    !(a == UNSPECIFIED || a == LOOPBACK || InPrefix(a, MULTICAST) || InPrefix(a, LINK_LOCAL))
  }

  // ---------------------------------------------------------------------------
  // The address classes as ranges of numbers

  /** `ff00::/8` is the top of the address space, from `ff00::` up. */
  lemma MulticastRange(a: Address)
    ensures InPrefix(a, MULTICAST) <==> 0xff00_0000_0000_0000_0000_0000_0000_0000 <= a
  {
    Pow2Values();
    DivChar(a, Pow2(120), 0xff);
    DivChar(MULTICAST.network, Pow2(120), 0xff);
  }

  /** `fe80::/10` is the range from `fe80::` up to, not including, `fec0::`. */
  lemma LinkLocalRange(a: Address)
    ensures IsLinkLocal(a) <==>
            0xfe80_0000_0000_0000_0000_0000_0000_0000 <= a < 0xfec0_0000_0000_0000_0000_0000_0000_0000
  {
    Pow2Values();
    DivChar(a, Pow2(118), 0x3fa);
    DivChar(LINK_LOCAL.network, Pow2(118), 0x3fa);
  }

  /** The global unicast addresses are exactly the two ranges left over: from `::2`
      below `fe80::`, and from `fec0::` below `ff00::`. */
  lemma GlobalUnicastRanges(a: Address)
    ensures IsGlobalUnicast(a) <==>
            || 2 <= a < 0xfe80_0000_0000_0000_0000_0000_0000_0000
            || 0xfec0_0000_0000_0000_0000_0000_0000_0000 <= a < 0xff00_0000_0000_0000_0000_0000_0000_0000
  {
    MulticastRange(a);
    LinkLocalRange(a);
  }

  /** Link-local addresses are never global unicast. */
  lemma LinkLocalIsNotGlobal(a: Address)
    ensures IsLinkLocal(a) ==> !IsGlobalUnicast(a)
    ensures IsGlobalUnicast(a) ==> a != UNSPECIFIED && a != LOOPBACK && a < 0xff00_0000_0000_0000_0000_0000_0000_0000
  {
    MulticastRange(a);
  }

  /** Sample addresses of each class: a documentation address and the deprecated
      site-local `fec0::1` are global unicast; `::`, `::1`, `fe80::1`, `febf::` and
      `ff02::1:2` are not. */
  lemma ClassifiedSamples()
    ensures IsGlobalUnicast(0x2001_0db8_0000_0000_0000_0000_0000_0001)
    ensures IsGlobalUnicast(0xfec0_0000_0000_0000_0000_0000_0000_0001)
    ensures !IsGlobalUnicast(UNSPECIFIED) && !IsGlobalUnicast(LOOPBACK)
    ensures IsLinkLocal(0xfe80_0000_0000_0000_0000_0000_0000_0001)
    ensures !IsGlobalUnicast(0xfe80_0000_0000_0000_0000_0000_0000_0001)
    ensures !IsGlobalUnicast(0xfebf_0000_0000_0000_0000_0000_0000_0000)
    ensures !IsGlobalUnicast(0xff02_0000_0000_0000_0000_0000_0001_0002)
  {
    GlobalUnicastRanges(0x2001_0db8_0000_0000_0000_0000_0000_0001);
    GlobalUnicastRanges(0xfec0_0000_0000_0000_0000_0000_0000_0001);
    LinkLocalRange(0xfe80_0000_0000_0000_0000_0000_0000_0001);
    GlobalUnicastRanges(0xfe80_0000_0000_0000_0000_0000_0000_0001);
    GlobalUnicastRanges(0xfebf_0000_0000_0000_0000_0000_0000_0000);
    GlobalUnicastRanges(0xff02_0000_0000_0000_0000_0000_0001_0002);
  }

  // ---------------------------------------------------------------------------
  // validate_config

  datatype ConfigError =
    | NoLinkLocalAddress
    | ReplyFromNotLinkLocal
    | ReplyFromNotOnInterface
    | NoGlobalUnicastAddress
    | LinkAddressNotGlobalUnicast

  /** The two addresses a validated listener section carries. */
  datatype ListenerAddresses = ListenerAddresses(replyFrom: Address, linkAddress: Address)

  /** The reply-from rule: without a configured address, the first link-local address
      of the interface; a configured one must be link-local and on the interface. */
  function ChooseReplyFrom(addrs: seq<Address>, configured: Option<Address>): (r: Result<Address, ConfigError>)
    ensures configured.None? && r.Success? ==>
              exists i :: && 0 <= i < |addrs| && addrs[i] == r.value && IsLinkLocal(addrs[i])
                          && forall j :: 0 <= j < i ==> !IsLinkLocal(addrs[j])
    ensures configured.None? ==>
              (r.Failure? <==> forall j :: 0 <= j < |addrs| ==> !IsLinkLocal(addrs[j]))
    ensures configured.None? && r.Failure? ==> r.error == NoLinkLocalAddress
    ensures configured.Some? ==>
              (r.Success? <==> IsLinkLocal(configured.value) && configured.value in addrs)
    ensures configured.Some? && r.Success? ==> r.value == configured.value
    ensures configured.Some? && !IsLinkLocal(configured.value) ==> r == Failure(ReplyFromNotLinkLocal)
    ensures configured.Some? && IsLinkLocal(configured.value) && configured.value !in addrs ==>
              r == Failure(ReplyFromNotOnInterface)
  {
    match configured
    case None =>
      (match FirstWhere(addrs, a => IsLinkLocal(a))
       case Some(i) => Success(addrs[i])
       case None => Failure(NoLinkLocalAddress))
    case Some(a) =>
      if !IsLinkLocal(a) then Failure(ReplyFromNotLinkLocal)
      else if a !in addrs then Failure(ReplyFromNotOnInterface)
      else Success(a)
  }

  /** The link-address rule: without a configured address, the first global unicast
      address of the interface; a configured one must be global unicast but need not
      be on the interface. */
  function ChooseLinkAddress(addrs: seq<Address>, configured: Option<Address>): (r: Result<Address, ConfigError>)
    ensures configured.None? && r.Success? ==>
              exists i :: && 0 <= i < |addrs| && addrs[i] == r.value && IsGlobalUnicast(addrs[i])
                          && forall j :: 0 <= j < i ==> !IsGlobalUnicast(addrs[j])
    ensures configured.None? ==>
              (r.Failure? <==> forall j :: 0 <= j < |addrs| ==> !IsGlobalUnicast(addrs[j]))
    ensures configured.None? && r.Failure? ==> r.error == NoGlobalUnicastAddress
    ensures configured.Some? ==> (r.Success? <==> IsGlobalUnicast(configured.value))
    ensures configured.Some? && r.Success? ==> r.value == configured.value
    ensures configured.Some? && r.Failure? ==> r.error == LinkAddressNotGlobalUnicast
  {
    match configured
    case None =>
      (match FirstWhere(addrs, a => IsGlobalUnicast(a))
       case Some(i) => Success(addrs[i])
       case None => Failure(NoGlobalUnicastAddress))
    case Some(a) =>
      if IsGlobalUnicast(a) then Success(a) else Failure(LinkAddressNotGlobalUnicast)
  }

  /** `a` is the first link-local address in `addrs`. */
  predicate FirstLinkLocal(addrs: seq<Address>, a: Address)
  {
    exists i :: && 0 <= i < |addrs| && addrs[i] == a && IsLinkLocal(a)
                && forall j :: 0 <= j < i ==> !IsLinkLocal(addrs[j])
  }

  /** `a` is the first global unicast address in `addrs`. */
  predicate FirstGlobalUnicast(addrs: seq<Address>, a: Address)
  {
    exists i :: && 0 <= i < |addrs| && addrs[i] == a && IsGlobalUnicast(a)
                && forall j :: 0 <= j < i ==> !IsGlobalUnicast(addrs[j])
  }

  /** `validate_config` over the enumerated interface addresses: the reply-from rule
      first, then the link-address rule. A validated section always replies from a
      link-local address of the interface and names a global unicast link address. */
  function ValidateConfig(addrs: seq<Address>, replyFrom: Option<Address>, linkAddress: Option<Address>)
    : (r: Result<ListenerAddresses, ConfigError>)
    ensures r.Success? ==>
              && IsLinkLocal(r.value.replyFrom) && r.value.replyFrom in addrs
              && IsGlobalUnicast(r.value.linkAddress)
              && (linkAddress.None? ==> r.value.linkAddress in addrs)
    ensures replyFrom.Some? && r.Success? ==> r.value.replyFrom == replyFrom.value
    ensures linkAddress.Some? && r.Success? ==> r.value.linkAddress == linkAddress.value
    ensures ChooseReplyFrom(addrs, replyFrom).Failure? ==> r == Failure(ChooseReplyFrom(addrs, replyFrom).error)
    ensures ChooseReplyFrom(addrs, replyFrom).Success? ==>
              (r.Failure? <==> ChooseLinkAddress(addrs, linkAddress).Failure?)
    ensures ChooseReplyFrom(addrs, replyFrom).Success? && ChooseLinkAddress(addrs, linkAddress).Failure? ==>
              r == Failure(ChooseLinkAddress(addrs, linkAddress).error)
    ensures r.Success? ==>
              r.value == ListenerAddresses(ChooseReplyFrom(addrs, replyFrom).value,
                                           ChooseLinkAddress(addrs, linkAddress).value)
    ensures replyFrom.None? && r.Success? ==> FirstLinkLocal(addrs, r.value.replyFrom)
    ensures linkAddress.None? && r.Success? ==> FirstGlobalUnicast(addrs, r.value.linkAddress)
  {
    var from :- ChooseReplyFrom(addrs, replyFrom);
    var link :- ChooseLinkAddress(addrs, linkAddress);
    Success(ListenerAddresses(from, link))
  }

  /** With neither address configured, the interface `fe80::1, fe80::2, 2001:db8::1`
      replies from `fe80::1`, the first of its two link-local addresses. */
  lemma ValidateConfigSample()
    ensures ValidateConfig([0xfe80_0000_0000_0000_0000_0000_0000_0001,
                            0xfe80_0000_0000_0000_0000_0000_0000_0002,
                            0x2001_0db8_0000_0000_0000_0000_0000_0001], None, None) ==
            Success(ListenerAddresses(0xfe80_0000_0000_0000_0000_0000_0000_0001,
                                      0x2001_0db8_0000_0000_0000_0000_0000_0001))
  {
    ClassifiedSamples();
    LinkLocalRange(0xfe80_0000_0000_0000_0000_0000_0000_0002);
    GlobalUnicastRanges(0xfe80_0000_0000_0000_0000_0000_0000_0002);
  }
}

=== FILE: option_codec.dfy ===
/** Generic option parsing and saving: `Option.parse` looks up the class registered
    for the code in front of the buffer and lets it load the option; codes without a
    class become an `UnknownOption` that keeps its payload as raw bytes. */
module OptionCodec {
  import opened Wrappers
  import opened Wire
  import opened OptionHeader
  import opened Rfc7083

  /** A parsed option: one of the registered RFC 7083 classes, or an unknown one. */
  datatype Opt =
    | MaxRt(option: MaxRtOption)
    | Unknown(code: int, data: seq<byte>)

  /** A successful parse: the number of bytes consumed and the option read. */
  datatype Parsed = Parsed(consumed: nat, option: Opt)

  /** The class registered for an option code, if any. */
  function Registered(code: nat): (r: Option<MaxRtKind>)
    ensures r.Some? <==> code == OPTION_SOL_MAX_RT || code == OPTION_INF_MAX_RT
    ensures r.Some? ==> r.value.Code() == code
  {
    if code == OPTION_SOL_MAX_RT then Some(SolMaxRt)
    else if code == OPTION_INF_MAX_RT then Some(InfMaxRt)
    else None
  }

  /** Python's `buffer[lo:hi]` for `lo` within the buffer: a slice running past the
      end stops at the end. */
  function Slice(buffer: seq<byte>, lo: nat, hi: nat): (r: seq<byte>)
    requires lo <= |buffer|
    ensures lo + |r| <= |buffer| && r == buffer[lo..lo + |r|]
    ensures |r| == if hi <= lo then 0 else if hi <= |buffer| then hi - lo else |buffer| - lo
  {
    if hi <= lo then []
    else if hi <= |buffer| then buffer[lo..hi]
    else buffer[lo..]
  }

  /** `UnknownOption.load_from`: any code, and the announced number of payload bytes,
      as far as the buffer holds them. */
  function LoadUnknown(buffer: seq<byte>, offset: nat, length: Option<nat>): (r: Result<Parsed, CodecError>)
    ensures r.Success? <==> ParseOptionHeader(buffer, offset, length, None).Success?
    ensures r.Success? ==>
              var h := ParseOptionHeader(buffer, offset, length, None).value;
              && r.value.consumed == HEADER_SIZE + h.length
              && r.value.option.Unknown? && r.value.option.code == h.code
              && (offset + HEADER_SIZE + h.length <= |buffer| ==>
                    r.value.option.data == buffer[offset + HEADER_SIZE..offset + HEADER_SIZE + h.length])
  {
    var h :- ParseOptionHeader(buffer, offset, length, None);
    Success(Parsed(HEADER_SIZE + h.length,
                   Unknown(h.code, Slice(buffer, offset + HEADER_SIZE, offset + HEADER_SIZE + h.length))))
  }

  /** `Option.parse`: dispatch on the code at `offset`. */
  function Parse(buffer: seq<byte>, offset: nat, length: Option<nat>): (r: Result<Parsed, CodecError>)
    ensures offset + 2 > |buffer| ==> r == Failure(Truncated)
    ensures r.Success? ==> offset + HEADER_SIZE <= |buffer|
    ensures r.Success? ==> r.value.consumed <= length.GetOr(|buffer| - offset)
    ensures r.Success? && r.value.option.MaxRt? ==> offset + r.value.consumed <= |buffer|
    ensures r.Success? ==> r.value.consumed >= HEADER_SIZE && UnpackUint16(buffer, offset) < UINT16_LIMIT
    ensures r.Success? && r.value.option.MaxRt? ==>
              Registered(UnpackUint16(buffer, offset)) == Some(r.value.option.option.kind)
    ensures r.Success? && r.value.option.Unknown? ==>
              && r.value.option.code == UnpackUint16(buffer, offset)
              && Registered(r.value.option.code).None?
    ensures offset + 2 <= |buffer| && Registered(UnpackUint16(buffer, offset)).None? ==>
              (r.Success? <==> ParseOptionHeader(buffer, offset, length, None).Success?)
    ensures offset + 2 <= |buffer| && Registered(UnpackUint16(buffer, offset)).Some? ==>
              (r.Success? <==> LoadMaxRt(Registered(UnpackUint16(buffer, offset)).value, buffer, offset, length).Success?)
  {
    if offset + 2 > |buffer| then Failure(Truncated)
    else
      match Registered(UnpackUint16(buffer, offset))
      case Some(kind) =>
        var l :- LoadMaxRt(kind, buffer, offset, length);
        Success(Parsed(l.consumed, MaxRt(l.option)))
      case None => LoadUnknown(buffer, offset, length)
  }

  /** `save`. An unknown option writes its code, its payload length and its payload;
      both header fields must fit in 16 bits. */
  function Save(o: Opt): (r: Result<seq<byte>, CodecError>)
    ensures r.Success? <==> Encodable(o)
    ensures r.Success? && o.Unknown? ==>
              && |r.value| == HEADER_SIZE + |o.data|
              && UnpackUint16(r.value, 0) == o.code
              && UnpackUint16(r.value, 2) == |o.data|
              && r.value[HEADER_SIZE..] == o.data
  {
    match o
    case MaxRt(m) => SaveMaxRt(m)
    case Unknown(code, data) =>
      if 0 <= code < UINT16_LIMIT && |data| < UINT16_LIMIT then
        var h := EncodeHeader(code, |data|);
        assert (h + data)[..HEADER_SIZE] == h;
        Success(h + data)
      else Failure(NotEncodable)
  }

  /** The fields of `o` fit their wire widths. */
  predicate Encodable(o: Opt)
  {
    match o
    case MaxRt(m) => 0 <= m.value < UINT32_LIMIT
    case Unknown(code, data) => 0 <= code < UINT16_LIMIT && |data| < UINT16_LIMIT
  }

  /** `validate`. An unknown option's code and payload length must fit in 16 bits.
      The RFC 7083 classes define no validation of their own; the RFC's range for the
      value is not checked. */
  function Validate(o: Opt): (r: Result<(), CodecError>)
    ensures o.Unknown? ==> (r.Success? <==> Encodable(o))
    ensures o.Unknown? && !(0 <= o.code < UINT16_LIMIT) ==> r == Failure(CodeOutOfRange)
    ensures o.Unknown? && 0 <= o.code < UINT16_LIMIT && |o.data| >= UINT16_LIMIT ==> r == Failure(DataTooLong)
    ensures o.MaxRt? ==> r.Success?
  {
    match o
    case MaxRt(_) => Success(())
    case Unknown(code, data) =>
      if !(0 <= code < UINT16_LIMIT) then Failure(CodeOutOfRange)
      else if |data| >= UINT16_LIMIT then Failure(DataTooLong)
      else Success(())
  }

  // ---------------------------------------------------------------------------
  // Round trips

  /** Whatever parses from a buffer that holds the whole option can be saved again,
      and saving reproduces exactly the bytes it was parsed from. */
  lemma ParseThenSave(buffer: seq<byte>, offset: nat, length: Option<nat>)
    requires Parse(buffer, offset, length).Success?
    requires offset + Parse(buffer, offset, length).value.consumed <= |buffer|
    ensures var p := Parse(buffer, offset, length).value;
            Save(p.option) == Success(buffer[offset..offset + p.consumed])
  {
    var code := UnpackUint16(buffer, offset);
    match Registered(code)
    case Some(kind) =>
      LoadThenSave(kind, buffer, offset, length);
    case None =>
      HeaderBytes(buffer, offset, length, None);
      var h := ParseOptionHeader(buffer, offset, length, None).value;
      assert buffer[offset..offset + HEADER_SIZE + h.length] ==
             buffer[offset..offset + HEADER_SIZE] + buffer[offset + HEADER_SIZE..offset + HEADER_SIZE + h.length];
  }

  /** A parsed option passes validation. */
  lemma ParsedValidates(buffer: seq<byte>, offset: nat, length: Option<nat>)
    requires Parse(buffer, offset, length).Success?
    ensures Validate(Parse(buffer, offset, length).value.option).Success?
  {}

  /** Parsing a saved option, wherever it sits in a buffer, gives it back and consumes
      exactly its bytes, unless it is an unknown option posing under a registered code.
      An explicit `length` is honoured whenever it leaves room for the whole option. */
  lemma SaveThenParse(o: Opt, prefix: seq<byte>, suffix: seq<byte>, length: Option<nat>)
    requires Encodable(o)
    requires o.Unknown? ==> Registered(o.code).None?
    requires length.Some? ==> |Save(o).value| <= length.value
    ensures Save(o).Success?
    ensures Parse(prefix + Save(o).value + suffix, |prefix|, length) == Success(Parsed(|Save(o).value|, o))
  {
    match o
    case MaxRt(m) =>
      SaveThenParseMaxRt(m, prefix, suffix, length);
    case Unknown(code, data) =>
      var h := EncodeHeader(code, |data|);
      assert Save(o).value == h + data;
      assert prefix + (h + data) + suffix == prefix + h + (data + suffix);
      SaveThenParseUnknown(code, data, prefix, suffix, length);
  }

  lemma SaveThenParseMaxRt(m: MaxRtOption, prefix: seq<byte>, suffix: seq<byte>, length: Option<nat>)
    requires 0 <= m.value < UINT32_LIMIT
    requires length.Some? ==> MAX_RT_SIZE <= length.value
    ensures SaveMaxRt(m).Success?
    ensures Parse(prefix + SaveMaxRt(m).value + suffix, |prefix|, length) == Success(Parsed(MAX_RT_SIZE, MaxRt(m)))
  {
    var bytes := SaveMaxRt(m).value;
    var buffer := prefix + bytes + suffix;
    SaveThenLoad(m, prefix, suffix, length);
    assert UnpackUint16(buffer, |prefix|) == UnpackUint16(bytes, 0);
    CodesDistinct();
  }

  lemma SaveThenParseUnknown(code: nat, data: seq<byte>, prefix: seq<byte>, suffix: seq<byte>, length: Option<nat>)
    requires code < UINT16_LIMIT && |data| < UINT16_LIMIT && Registered(code).None?
    requires length.Some? ==> HEADER_SIZE + |data| <= length.value
    ensures Parse(prefix + EncodeHeader(code, |data|) + (data + suffix), |prefix|, length) ==
            Success(Parsed(HEADER_SIZE + |data|, Unknown(code, data)))
  {
    var buffer := prefix + EncodeHeader(code, |data|) + (data + suffix);
    HeaderRoundTrip(prefix, code, |data|, data + suffix, length);
    assert buffer[|prefix| + HEADER_SIZE..|prefix| + HEADER_SIZE + |data|] == data;
  }

  // ---------------------------------------------------------------------------
  // The generic option fixture

  /** The ASCII payload `0123456789abcdef`. */
  const FIXTURE_DATA: seq<byte> :=
    [0x30, 0x31, 0x32, 0x33, 0x34, 0x35, 0x36, 0x37, 0x38, 0x39, 0x61, 0x62, 0x63, 0x64, 0x65, 0x66]

  /** Option code 65535 announcing 16 bytes, followed by the payload. */
  const FIXTURE_BYTES: seq<byte> := [0xff, 0xff, 0x00, 0x10] + FIXTURE_DATA

  const FIXTURE_OPTION: Opt := Unknown(65535, FIXTURE_DATA)

  /** The fixture parses into the unknown option with code 65535 and its payload, and
      consumes the whole 20-byte buffer. */
  lemma FixtureParses()
    ensures Parse(FIXTURE_BYTES, 0, None) == Success(Parsed(|FIXTURE_BYTES|, FIXTURE_OPTION))
    ensures |FIXTURE_BYTES| == 20
  {
    SaveThenParse(FIXTURE_OPTION, [], [], None);
    assert Save(FIXTURE_OPTION).value == FIXTURE_BYTES;
    assert [] + FIXTURE_BYTES + [] == FIXTURE_BYTES;
  }

  /** Saving the constructed fixture option yields the fixture bytes, and so does
      saving the parsed one. */
  lemma FixtureSaves()
    ensures Save(FIXTURE_OPTION) == Success(FIXTURE_BYTES)
    ensures Save(Parse(FIXTURE_BYTES, 0, None).value.option) == Success(FIXTURE_BYTES)
  {
    FixtureParses();
    assert Save(FIXTURE_OPTION).value == FIXTURE_BYTES;
  }

  /** Allowing one byte less than the option occupies is refused. */
  lemma FixtureOverflows()
    ensures Parse(FIXTURE_BYTES, 0, Some(|FIXTURE_BYTES| - 1)) == Failure(LongerThanBuffer)
  {
    assert UnpackUint16(FIXTURE_BYTES, 0) == 65535;
    assert UnpackUint16(FIXTURE_BYTES, 2) == 16;
  }

  /** Allowing exactly the bytes the option occupies parses it as without a length. */
  lemma FixtureFitsLength()
    ensures Parse(FIXTURE_BYTES, 0, Some(|FIXTURE_BYTES|)) == Success(Parsed(|FIXTURE_BYTES|, FIXTURE_OPTION))
  {
    SaveThenParse(FIXTURE_OPTION, [], [], Some(|FIXTURE_BYTES|));
    assert Save(FIXTURE_OPTION).value == FIXTURE_BYTES;
    assert [] + FIXTURE_BYTES + [] == FIXTURE_BYTES;
  }

  /** The parsed fixture passes validation. */
  lemma FixtureValidates()
    ensures Validate(Parse(FIXTURE_BYTES, 0, None).value.option).Success?
  {
    FixtureParses();
  }
}

=== FILE: option_header.dfy ===
/** The generic DHCPv6 option header (section 21.1 of RFC 8415): a 16-bit option code
    and a 16-bit payload length, both big-endian, in front of the payload. This is the
    one header parser every option class relies on. */
module OptionHeader {
  import opened Wrappers
  import opened Wire

  /** The size of the header in bytes. */
  const HEADER_SIZE: nat := 4

  /** Why an option could not be read or written. */
  datatype CodecError =
    | Truncated          // the buffer ends inside a fixed-width field
    | WrongOptionType    // the header carries another code than the class expects
    | LongerThanBuffer   // the announced payload does not fit the allowed length
    | BadOptionLength    // a fixed-size option announced another payload length
    | NotEncodable       // a field does not fit its wire width
    | CodeOutOfRange     // an option code is not an unsigned 16-bit value
    | DataTooLong        // an option payload is longer than 65535 bytes

  datatype Header = Header(code: nat, length: nat)

  /** The bytes of the header for `code` and a payload of `length` bytes. */
  function EncodeHeader(code: nat, length: nat): (r: seq<byte>)
    requires code < UINT16_LIMIT && length < UINT16_LIMIT
    ensures |r| == HEADER_SIZE
    ensures UnpackUint16(r, 0) == code && UnpackUint16(r, 2) == length
  {
    PackUint16(code) + PackUint16(length)
  }

  /** `parse_option_header`: read the header at `offset`. A typed option class passes
      its own code as `expected`; the whole option must fit in `length` bytes, or in
      the rest of the buffer when no length is given. */
  function ParseOptionHeader(buffer: seq<byte>, offset: nat, length: Option<nat>, expected: Option<nat>)
    : (r: Result<Header, CodecError>)
    ensures r.Success? <==>
              && offset + HEADER_SIZE <= |buffer|
              && (expected.None? || expected.value == UnpackUint16(buffer, offset))
              && HEADER_SIZE + UnpackUint16(buffer, offset + 2) <= length.GetOr(|buffer| - offset)
    ensures r.Success? ==>
              && r.value.code == UnpackUint16(buffer, offset)
              && r.value.length == UnpackUint16(buffer, offset + 2)
              && r.value.code < UINT16_LIMIT && r.value.length < UINT16_LIMIT
    ensures offset + HEADER_SIZE > |buffer| ==> r == Failure(Truncated)
    ensures offset + HEADER_SIZE <= |buffer| && expected.Some? && expected.value != UnpackUint16(buffer, offset) ==>
              r == Failure(WrongOptionType)
  {
    if offset + HEADER_SIZE > |buffer| then Failure(Truncated)
    else
      var code := UnpackUint16(buffer, offset);
      var len := UnpackUint16(buffer, offset + 2);
      if expected.Some? && expected.value != code then Failure(WrongOptionType)
      else if HEADER_SIZE + len > length.GetOr(|buffer| - offset) then Failure(LongerThanBuffer)
      else Success(Header(code, len))
  }

  /** A header written by `EncodeHeader` reads back as itself, wherever it sits, as
      long as the announced payload fits the buffer and the allowed length, if any. */
  lemma {:induction false} HeaderRoundTrip(prefix: seq<byte>, code: nat, length: nat, suffix: seq<byte>,
                                           allowed: Option<nat>)
    requires code < UINT16_LIMIT && length < UINT16_LIMIT
    requires length <= |suffix|
    requires allowed.Some? ==> HEADER_SIZE + length <= allowed.value
    ensures ParseOptionHeader(prefix + EncodeHeader(code, length) + suffix, |prefix|, allowed, Some(code)) ==
            Success(Header(code, length))
  {
    var h := EncodeHeader(code, length);
    var buffer := prefix + h + suffix;
    assert buffer[|prefix|..|prefix| + 4] == h;
    assert UnpackUint16(buffer, |prefix|) == UnpackUint16(h, 0);
    assert UnpackUint16(buffer, |prefix| + 2) == UnpackUint16(h, 2);
  }

  /** Writing a parsed header back reproduces its four bytes. */
  lemma HeaderBytes(buffer: seq<byte>, offset: nat, length: Option<nat>, expected: Option<nat>)
    requires ParseOptionHeader(buffer, offset, length, expected).Success?
    ensures var h := ParseOptionHeader(buffer, offset, length, expected).value;
            EncodeHeader(h.code, h.length) == buffer[offset..offset + HEADER_SIZE]
  {
    Uint16Bytes(buffer, offset);
    Uint16Bytes(buffer, offset + 2);
  }
}

=== FILE: rfc7083.dfy ===
/** The SOL_MAX_RT and INF_MAX_RT options of RFC 7083 (sections 4 and 5): a fixed
    8-byte option whose payload is one 32-bit big-endian number of seconds. The two
    classes differ only in their option code. */
module Rfc7083 {
  import opened Wrappers
  import opened Wire
  import opened OptionHeader

  const OPTION_SOL_MAX_RT: nat := 82
  const OPTION_INF_MAX_RT: nat := 83

  /** The payload length both options must announce. */
  const MAX_RT_LENGTH: nat := 4

  /** The size of a whole encoded option. */
  const MAX_RT_SIZE: nat := 8

  datatype MaxRtKind = SolMaxRt | InfMaxRt {
    /** The class's `option_type`. */
    function Code(): (r: nat)
      ensures r < UINT16_LIMIT
    {
      match this
      case SolMaxRt => OPTION_SOL_MAX_RT
      case InfMaxRt => OPTION_INF_MAX_RT
    }
  }

  /** An option object. The value is whatever integer the object holds; the RFC's
      range of 60 to 86400 seconds is documented but never enforced. */
  datatype MaxRtOption = MaxRtOption(kind: MaxRtKind, value: int)

  /** A successful `load_from`: the number of bytes consumed and the option read. */
  datatype Loaded = Loaded(consumed: nat, option: MaxRtOption)

  lemma CodesDistinct()
    ensures SolMaxRt.Code() == 82 && InfMaxRt.Code() == 83
    ensures forall k1: MaxRtKind, k2: MaxRtKind :: k1.Code() == k2.Code() ==> k1 == k2
  {}

  /** `save`: the option's code, the payload length 4 and the value, each big-endian;
      a value that is not an unsigned 32-bit number cannot be written. */
  function SaveMaxRt(o: MaxRtOption): (r: Result<seq<byte>, CodecError>)
    ensures r.Success? <==> 0 <= o.value < UINT32_LIMIT
    ensures r.Failure? ==> r.error == NotEncodable
    ensures r.Success? ==>
              && |r.value| == MAX_RT_SIZE
              && UnpackUint16(r.value, 0) == o.kind.Code()
              && UnpackUint16(r.value, 2) == MAX_RT_LENGTH
              && UnpackUint32(r.value, 4) == o.value
  {
    if 0 <= o.value < UINT32_LIMIT then
      var r := EncodeHeader(o.kind.Code(), MAX_RT_LENGTH) + PackUint32(o.value);
      Uint32RoundTrip(EncodeHeader(o.kind.Code(), MAX_RT_LENGTH), o.value, []);
      assert r + [] == r;
      Success(r)
    else Failure(NotEncodable)
  }

  /** `load_from`, with the value stored as the number `unpack_from` read: the header
      must carry this class's code and announce exactly 4 bytes, and the option
      consumes the header plus those 4 bytes. */
  function LoadMaxRt(kind: MaxRtKind, buffer: seq<byte>, offset: nat, length: Option<nat>)
    : (r: Result<Loaded, CodecError>)
    ensures r.Success? ==>
              && r.value.consumed == MAX_RT_SIZE
              && offset + MAX_RT_SIZE <= |buffer|
              && r.value.option == MaxRtOption(kind, UnpackUint32(buffer, offset + HEADER_SIZE))
    ensures r.Success? <==>
              && ParseOptionHeader(buffer, offset, length, Some(kind.Code())).Success?
              && ParseOptionHeader(buffer, offset, length, Some(kind.Code())).value.length == MAX_RT_LENGTH
              && offset + MAX_RT_SIZE <= |buffer|
    ensures ParseOptionHeader(buffer, offset, length, Some(kind.Code())).Failure? ==>
              r == Failure(ParseOptionHeader(buffer, offset, length, Some(kind.Code())).error)
    ensures ParseOptionHeader(buffer, offset, length, Some(kind.Code())).Success? &&
            ParseOptionHeader(buffer, offset, length, Some(kind.Code())).value.length != MAX_RT_LENGTH ==>
              r == Failure(BadOptionLength)
  {
    var header :- ParseOptionHeader(buffer, offset, length, Some(kind.Code()));
    if header.length != MAX_RT_LENGTH then Failure(BadOptionLength)
    else if offset + HEADER_SIZE + 4 > |buffer| then Failure(Truncated)
    else Success(Loaded(HEADER_SIZE + 4, MaxRtOption(kind, UnpackUint32(buffer, offset + HEADER_SIZE))))
  }

  /** Loading a saved option, wherever it sits in a buffer, gives back the option and
      consumes its 8 bytes, under any allowed length that leaves room for them. */
  lemma {:induction false} SaveThenLoad(o: MaxRtOption, prefix: seq<byte>, suffix: seq<byte>, length: Option<nat>)
    requires 0 <= o.value < UINT32_LIMIT
    requires length.Some? ==> MAX_RT_SIZE <= length.value
    ensures SaveMaxRt(o).Success?
    ensures LoadMaxRt(o.kind, prefix + SaveMaxRt(o).value + suffix, |prefix|, length) ==
            Success(Loaded(MAX_RT_SIZE, o))
  {
    var header := EncodeHeader(o.kind.Code(), MAX_RT_LENGTH);
    var bytes := SaveMaxRt(o).value;
    assert bytes == header + PackUint32(o.value);
    var buffer := prefix + bytes + suffix;
    assert buffer == prefix + header + (PackUint32(o.value) + suffix);
    HeaderRoundTrip(prefix, o.kind.Code(), MAX_RT_LENGTH, PackUint32(o.value) + suffix, length);
    assert buffer == (prefix + header) + PackUint32(o.value) + suffix;
    Uint32RoundTrip(prefix + header, o.value, suffix);
  }

  /** Saving a loaded option reproduces the bytes it was loaded from. */
  lemma LoadThenSave(kind: MaxRtKind, buffer: seq<byte>, offset: nat, length: Option<nat>)
    requires LoadMaxRt(kind, buffer, offset, length).Success?
    ensures var l := LoadMaxRt(kind, buffer, offset, length).value;
            SaveMaxRt(l.option) == Success(buffer[offset..offset + l.consumed])
  {
    HeaderBytes(buffer, offset, length, Some(kind.Code()));
    Uint32Bytes(buffer, offset + HEADER_SIZE);
    assert buffer[offset..offset + MAX_RT_SIZE] ==
           buffer[offset..offset + HEADER_SIZE] + buffer[offset + HEADER_SIZE..offset + MAX_RT_SIZE];
  }

  /** A typed option refuses a buffer holding another option's code, such as the
      empty option `fffe0000`. */
  lemma WrongBufferRefused(kind: MaxRtKind)
    ensures LoadMaxRt(kind, [0xff, 0xfe, 0x00, 0x00], 0, None) == Failure(WrongOptionType)
  {
    assert UnpackUint16([0xff, 0xfe, 0x00, 0x00], 0) == 0xfffe;
  }

  // ---------------------------------------------------------------------------
  // load_from as written

  /** What an option object's value attribute holds: a number, or the 1-tuple that
      `unpack_from` returns. */
  datatype FieldValue = Number(n: int) | OneTuple(item: int)

  datatype MaxRtObject = MaxRtObject(kind: MaxRtKind, field: FieldValue)

  /** `load_from` as written: the attribute is assigned the whole result of
      `unpack_from`, a 1-tuple, rather than its single element. */
  function LoadMaxRtAsWritten(kind: MaxRtKind, buffer: seq<byte>, offset: nat, length: Option<nat>)
    : (r: Result<(nat, MaxRtObject), CodecError>)
    ensures r.Success? <==> LoadMaxRt(kind, buffer, offset, length).Success?
    ensures r.Success? ==>
              && r.value.0 == LoadMaxRt(kind, buffer, offset, length).value.consumed
              && r.value.1 == MaxRtObject(kind, OneTuple(LoadMaxRt(kind, buffer, offset, length).value.option.value))
  {
    var header :- ParseOptionHeader(buffer, offset, length, Some(kind.Code()));
    if header.length != MAX_RT_LENGTH then Failure(BadOptionLength)
    else if offset + HEADER_SIZE + 4 > |buffer| then Failure(Truncated)
    else Success((HEADER_SIZE + 4, MaxRtObject(kind, OneTuple(UnpackUint32(buffer, offset + HEADER_SIZE)))))
  }

  /** `save` on an object as it stands: `pack` takes only an integer for `I`. */
  function SaveMaxRtObject(o: MaxRtObject): (r: Result<seq<byte>, CodecError>)
    ensures o.field.OneTuple? ==> r == Failure(NotEncodable)
    ensures o.field.Number? ==> r == SaveMaxRt(MaxRtOption(o.kind, o.field.n))
  {
    match o.field
    case Number(n) => SaveMaxRt(MaxRtOption(o.kind, n))
    case OneTuple(_) => Failure(NotEncodable)
  }

  /** With `load_from` as written, no loaded option can be saved again: the round trip
      through the wire format fails for every value. */
  lemma LoadAsWrittenBreaksSave(o: MaxRtOption)
    requires 0 <= o.value < UINT32_LIMIT
    ensures SaveMaxRt(o).Success?
    ensures var loaded := LoadMaxRtAsWritten(o.kind, SaveMaxRt(o).value, 0, None);
            loaded.Success? && SaveMaxRtObject(loaded.value.1) == Failure(NotEncodable)
  {
    SaveThenLoad(o, [], [], None);
    assert [] + SaveMaxRt(o).value + [] == SaveMaxRt(o).value;
  }
}

=== FILE: sequences.dfy ===
/** Searching sequences. */
module Sequences {
  import opened Wrappers

  /** The position of the first element of `s` that satisfies `p`, if any. */
  function FirstWhere<T>(s: seq<T>, p: T -> bool): (r: Option<nat>)
    ensures r.Some? ==> r.value < |s| && p(s[r.value])
    ensures r.Some? ==> forall j :: 0 <= j < r.value ==> !p(s[j])
    ensures r.None? ==> forall j :: 0 <= j < |s| ==> !p(s[j])
  {
    if |s| == 0 then None
    else if p(s[0]) then Some(0)
    else
      match FirstWhere(s[1..], p)
      case Some(k) => Some(k + 1)
      case None => None
  }

  /** Strictly increasing: the order in which indices of a sequence are visited. */
  predicate Increasing(s: seq<nat>)
  {
    forall i, j :: 0 <= i < j < |s| ==> s[i] < s[j]
  }

  /** Putting the head of an increasing `s` in front of an increasing run drawn from the
      rest of `s` keeps it increasing. */
  lemma IncreasingCons(s: seq<nat>, t: seq<nat>)
    requires |s| > 0 && forall i :: i in t ==> i in s[1..]
    ensures Increasing(s) && Increasing(t) ==> Increasing([s[0]] + t)
  {
    if Increasing(s) && Increasing(t) {
      forall j | 0 <= j < |t|
        ensures s[0] < t[j]
      {
        assert t[j] in s[1..];
        var m :| 0 <= m < |s| - 1 && s[1..][m] == t[j];
        assert s[m + 1] == t[j];
      }
    }
  }

  /** The three parts of `p + x + y`, recovered by slicing. */
  lemma ConcatParts<T>(p: seq<T>, x: seq<T>, y: seq<T>)
    ensures |p + x + y| == |p| + |x| + |y|
    ensures (p + x + y)[..|p|] == p
    ensures (p + x + y)[|p|..|p| + |x|] == x
    ensures (p + x + y)[|p| + |x|..] == y
  {
  }
}

=== FILE: transaction_bundle.dfy ===
/** The per-transaction state shared by the option handlers: the request, the link
    it arrived on, the set of request options already answered, and the reply
    options built so far. */
module TransactionBundle {
  import opened Wrappers
  import opened Ipv6
  import opened Sequences
  import opened DhcpOptions

  /** The DHCPv6 message types of section 7.3 of RFC 8415. */
  datatype MessageKind =
    | Solicit | Advertise | Request | Confirm | Renew | Rebind | Reply
    | Release | Decline | Reconfigure | InformationRequest | RelayForward | RelayReply

  datatype Message = Message(kind: MessageKind, options: seq<DhcpOption>)

  /** `handled` holds positions in `request.options`: an option instance is identified
      by where it sits in the request, not by its iaid, which need not be unique. */
  datatype Bundle = Bundle(
    request: Message,
    linkAddress: Option<Address>,
    handled: set<nat>,
    reply: seq<DhcpOption>)

  /** The errors a handler can raise. */
  datatype HandlerError =
    | NoLinkInformation   // the bundle has no link address
    | MissingClientId     // the request has no client identifier option

  /** All of `idxs` are positions of IA options of the given kind in `request`. */
  predicate IaIndices(request: Message, idxs: seq<nat>, kind: IaKind)
  {
    forall j :: 0 <= j < |idxs| ==> idxs[j] < |request.options| && IsIa(request.options[idxs[j]], kind)
  }

  /** The positions, from `from` on, of the IA options of `kind` not yet handled. */
  function UnansweredFrom(options: seq<DhcpOption>, handled: set<nat>, kind: IaKind, from: nat): (r: seq<nat>)
    requires from <= |options|
    ensures forall j :: 0 <= j < |r| ==> from <= r[j] < |options| && IsIa(options[r[j]], kind) && r[j] !in handled
    ensures forall i :: from <= i < |options| && IsIa(options[i], kind) && i !in handled ==> i in r
    ensures Increasing(r)
    decreases |options| - from
  {
    if from == |options| then []
    else
      var rest := UnansweredFrom(options, handled, kind, from + 1);
      if IsIa(options[from], kind) && from !in handled then [from] + rest else rest
  }

  /** `get_unanswered_iana_options()` / `get_unanswered_iapd_options()`: the IA options
      of `kind` not yet handled, in request order. */
  function Unanswered(b: Bundle, kind: IaKind): (r: seq<nat>)
    ensures IaIndices(b.request, r, kind) && Increasing(r)
    ensures forall i: nat :: i in r <==> i < |b.request.options| && IsIa(b.request.options[i], kind) && i !in b.handled
  {
    UnansweredFrom(b.request.options, b.handled, kind, 0)
  }

  /** `mark_handled`: the option at position `i` drops out of every unanswered view
      and nothing else changes. */
  function MarkHandled(b: Bundle, i: nat): (r: Bundle)
    ensures r.request == b.request && r.linkAddress == b.linkAddress && r.reply == b.reply
    ensures r.handled == b.handled + {i}
    ensures forall kind, j :: j in Unanswered(r, kind) <==> j in Unanswered(b, kind) && j != i
  {
    b.(handled := b.handled + {i})
  }

  /** Append an option to the reply under construction. */
  function AppendReply(b: Bundle, o: DhcpOption): Bundle
  {
    b.(reply := b.reply + [o])
  }

  /** The address of the link the request arrived on; a bundle without one is an error. */
  function LinkAddress(b: Bundle): (r: Result<Address, HandlerError>)
    ensures r.Success? <==> b.linkAddress.Some?
    ensures r.Success? ==> r.value == b.linkAddress.value
    ensures r.Failure? ==> r.error == NoLinkInformation
  {
    match b.linkAddress
    case Some(a) => Success(a)
    case None => Failure(NoLinkInformation)
  }

  /** How a handler may change a bundle: the request and link stay as they are, the
      handled set only grows, and only options that were IA options not yet handled
      get marked. */
  ghost predicate Evolves(b: Bundle, r: Bundle)
  {
    && r.request == b.request
    && r.linkAddress == b.linkAddress
    && b.handled <= r.handled
    && forall i :: i in r.handled && i !in b.handled ==>
         i < |b.request.options| && b.request.options[i].IaOption?
  }

  /** Two handler steps in a row are a handler step. */
  lemma EvolvesTrans(b: Bundle, m: Bundle, r: Bundle)
    requires Evolves(b, m) && Evolves(m, r)
    ensures Evolves(b, r)
  {
  }
}

=== FILE: wire.dfy ===
/** Byte-level building blocks of the DHCPv6 option format (section 21.1 of RFC 8415):
    big-endian fixed-width integers. */
module Wire {

  type byte = x: int | 0 <= x < 256

  const UINT16_LIMIT: nat := 0x1_0000
  const UINT32_LIMIT: nat := 0x1_0000_0000

  /** The two bytes of `v`, most significant first. */
  function PackUint16(v: nat): (r: seq<byte>)
    requires v < UINT16_LIMIT
    ensures |r| == 2
  {
    [v / 0x100, v % 0x100]
  }

  /** The 16-bit number held big-endian in the two bytes at `at`. */
  function UnpackUint16(buffer: seq<byte>, at: nat): (v: nat)
    requires at + 2 <= |buffer|
    ensures v < UINT16_LIMIT
  {
    (buffer[at] as int) * 0x100 + buffer[at + 1] as int
  }

  /** The four bytes of `v`, most significant first. */
  function PackUint32(v: nat): (r: seq<byte>)
    requires v < UINT32_LIMIT
    ensures |r| == 4
  {
    PackUint16(v / UINT16_LIMIT) + PackUint16(v % UINT16_LIMIT)
  }

  /** The 32-bit number held big-endian in the four bytes at `at`. */
  function UnpackUint32(buffer: seq<byte>, at: nat): (v: nat)
    requires at + 4 <= |buffer|
    ensures v < UINT32_LIMIT
  {
    UnpackUint16(buffer, at) * UINT16_LIMIT + UnpackUint16(buffer, at + 2)
  }

  lemma Uint16RoundTrip(v: nat)
    requires v < UINT16_LIMIT
    ensures UnpackUint16(PackUint16(v), 0) == v
  {}

  lemma Uint16Bytes(buffer: seq<byte>, at: nat)
    requires at + 2 <= |buffer|
    ensures PackUint16(UnpackUint16(buffer, at)) == buffer[at..at + 2]
  {}

  /** Reading back a packed 32-bit value yields it, wherever it sits in a buffer. */
  lemma {:induction false} Uint32RoundTrip(prefix: seq<byte>, v: nat, suffix: seq<byte>)
    requires v < UINT32_LIMIT
    ensures UnpackUint32(prefix + PackUint32(v) + suffix, |prefix|) == v
  {
    var buffer := prefix + PackUint32(v) + suffix;
    var hi, lo := v / UINT16_LIMIT, v % UINT16_LIMIT;
    assert buffer[|prefix|..|prefix| + 4] == PackUint16(hi) + PackUint16(lo);
    assert UnpackUint16(buffer, |prefix|) == hi;
    assert UnpackUint16(buffer, |prefix| + 2) == lo;
  }

  /** Writing back an unpacked 32-bit value reproduces its four bytes. */
  lemma Uint32Bytes(buffer: seq<byte>, at: nat)
    requires at + 4 <= |buffer|
    ensures PackUint32(UnpackUint32(buffer, at)) == buffer[at..at + 4]
  {
    var hi, lo := UnpackUint16(buffer, at), UnpackUint16(buffer, at + 2);
    var v := UnpackUint32(buffer, at);
    assert v / UINT16_LIMIT == hi && v % UINT16_LIMIT == lo;
    Uint16Bytes(buffer, at);
    Uint16Bytes(buffer, at + 2);
  }
}

=== FILE: wrappers.dfy ===
/** Failure-compatible wrappers used throughout the model: an optional value and a
    value-or-error result. */
module Wrappers {

  /** A value that may be absent (Python's `None`). */
  datatype Option<+T> = None | Some(value: T) {

    /** The value, or `default` when absent. */
    function GetOr(default: T): T {
      match this
      case Some(v) => v
      case None => default
    }
  }

  /** The outcome of an operation that may raise an error. */
  datatype Result<+R, +E> = Success(value: R) | Failure(error: E) {

    predicate IsFailure() {
      Failure?
    }

    function PropagateFailure<U>(): Result<U, E>
      requires Failure?
    {
      Failure(error)
    }

    function Extract(): R
      requires Success?
    {
      value
    }
  }
}
